=== FILE: README.md ===
# Nyzo verifier messages: envelope, bootstrap and node-join responses

This project models, in Dafny, how the Nyzo verifier puts messages on the wire and reads them back.

**The message envelope.** A message carries:
- a timestamp;
- a message type;
- an optional content object;
- the identifier of the node that created it;
- that node's signature over everything before the signature.

On the wire it is preceded by its total length:

    length (4) | timestamp (8) | type (2) | content | identifier (32) | signature (64)

**What the model covers:**
- the two constructors (local: signed and valid; remote: valid when the signature verifies);
- re-keying with `sign`;
- the two encoders;
- `fromBytes` with its `processContent` dispatch;
- `readFromStream`;
- the bounded read loop of `getResponse`;
- the decisions around sending: the broadcast filter, the random-peer choice, the self guard, the at-most-three connection attempts, and the rule that a null or invalid response reaches the callback as null.

**The two payloads.**
- **BootstrapResponse.** A mesh snapshot, up to five frozen-block hashes, the transaction pool and the unfrozen block pool, each list behind its own count field (int, byte, int, short).
- **NodeJoinResponse.** The Genesis block plus the frozen blocks of the window `[max(1, H - 4), H]`, each followed by its balance list, behind a short count.

For each payload the model has:
- the snapshot constructor, over the chain-state providers given as parameters;
- `getByteSize`, `getBytes` and `fromByteBuffer`, written as methods over a byte buffer. Each method is proved equal to a functional specification (`Encode`, `Decode`).

**Proofs.**
- Round trips: everything `getBytes` writes, `fromByteBuffer` reads back, stopping right after it. A transmission parses back into the envelope as the receiver decodes it: the same fields, with a bootstrap response's blocks arriving without balance lists.
- Size agreement.
- The snapshot properties.
- End to end: a message signed here and transmitted arrives valid.

**How the rest of the verifier appears.** Node, Block and BlockHeader are datatypes whose fields this model writes where the source does (the mesh entries of a bootstrap response). Transaction, BalanceList, the block body and the other payloads are abstract types, with their serialisers as function-valued parameters (`External.Serializers`). Crypto is a `Crypto.Signer`. The properties they are expected to satisfy are predicates (`External.RoundTrips`, `Crypto.Sound`), used as hypotheses of the lemmas that need them.

**Fixed constants.**
- `FieldByteSize` is fixed to the widths the serialisers write: timestamp 8, type 2, identifier 32, signature 64, length 4, port 4, flag 1, height 8, node list 4, hash list 1, transaction pool 4, unfrozen pool 2, hash 32, IP address 4.
- A message type is identified by the number in its name: `BootstrapResponse2` has value 2.

**Behaviour worth noting.**
- `firstHashHeight` is the height of the *lowest* block whose hash was collected (the last one), because the code overwrites it on every iteration. It is not the highest.
- A type with no decoder in `processContent` consumes no content bytes: the identifier is read right after the type.

## Model

| member | source | states |
|---|---|---|
| Messages.DecoderFor | src/main/java/co/nyzo/verifier/Message.java:351-352 | MissingBlockVoteResponse24 is decoded as a block vote, like BlockVote19 |
| Messages.ContentByteSize | src/main/java/co/nyzo/verifier/Message.java:240-242 | content.getByteSize() equals the length of content.getBytes() for every content kind; null content counts zero |
| Messages.PutContent | src/main/java/co/nyzo/verifier/Message.java:251-253 | exactly the content's bytes are appended, and nothing for null content |
| Messages.PutSignedRegion | src/main/java/co/nyzo/verifier/Message.java:249-254 | the buffer gains timestamp, type, content and identifier, in that order |
| Messages.Message.Local | src/main/java/co/nyzo/verifier/Message.java:26-33 | a local message carries identifierForSeed(seed), is signed with that seed over its own signed region (identifier included), and is valid |
| Messages.Message.Remote | src/main/java/co/nyzo/verifier/Message.java:36-48 | a remote message keeps the fields it was given, and is valid exactly when the signature verifies over its signed region against its identifier |
| Messages.Message.Sign | src/main/java/co/nyzo/verifier/Message.java:84-87 | re-keying sets the identifier first, so the new signature covers the new identifier; only identifier and signature may change, and validity is untouched |
| Messages.Message.GetBytesForSigning | src/main/java/co/nyzo/verifier/Message.java:236-257 | the array is exactly BE64(timestamp), BE16(type), the content bytes and the identifier, with no padding |
| Messages.Message.GetBytesForTransmission | src/main/java/co/nyzo/verifier/Message.java:259-285 | the array is exactly BE32(size), the signed region and the signature, filled to the size computed |
| Messages.TransmissionLength | src/main/java/co/nyzo/verifier/Message.java:262-266 | the signed region is 42 bytes plus the content, and the transmission is 4 + that + 64, which is the size written in its first field |
| Messages.TransmissionTail | src/main/java/co/nyzo/verifier/Message.java:273-282 | after the length field come exactly the signed region and the signature |
| Messages.TransmissionLayout | src/main/java/co/nyzo/verifier/Message.java:259-285 | the length field reads back as the total array length n; bytes [4, n-64) are exactly the signed region; the last 64 are the signature |
| Messages.ParseTrailer | src/main/java/co/nyzo/verifier/Message.java:302-307 | after the content, a message is built exactly when the type is known and 96 more bytes follow; its identifier and signature are those bytes |
| Messages.ProcessContent | src/main/java/co/nyzo/verifier/Message.java:316-368 | the buffer form of the dispatch reads what ReadContent specifies and leaves the position where it stopped |
| Messages.ReadContentWritable | src/main/java/co/nyzo/verifier/Message.java:300-307 | decoded content can be written again, so the remote constructor's getBytesForSigning does not throw on it |
| Messages.FromBytes | src/main/java/co/nyzo/verifier/Message.java:287-314 | null exactly when the specification fails (any short read, a payload decoder that throws, an unknown type); otherwise a fresh message with the parsed fields, valid exactly when its signature verifies |
| Messages.ReadFromStream | src/main/java/co/nyzo/verifier/Message.java:182-195 | an empty response gives null; any other goes through fromBytes |
| Messages.ReceivedRegion | src/main/java/co/nyzo/verifier/Message.java:236-257 | content as the receiver decodes it writes the same bytes, so the signed region is unchanged |
| Messages.ReadContentOf | src/main/java/co/nyzo/verifier/Message.java:316-368 | for a type and content that match, processContent reads back the content getBytes wrote and stops right after it |
| Messages.ParseHead | src/main/java/co/nyzo/verifier/Message.java:297-300 | timestamp, unsigned type value and content read back; reading continues right after the content |
| Messages.ParseEncoded | src/main/java/co/nyzo/verifier/Message.java:287-314 | wherever a signed region and its signature stand, fromBytes gives back the envelope as the receiver decodes it (`Received`) and uses exactly those bytes |
| Messages.ParseTransmission | src/main/java/co/nyzo/verifier/Message.java:287-314 | fromBytes on getBytesForTransmission minus its length field recovers timestamp, type (read unsigned, 0..65535), identifier and signature, and the content as the receiver decodes it (a bootstrap response's blocks without balance lists) |
| Messages.TruncatedTransmission | src/main/java/co/nyzo/verifier/Message.java:292-311 | a transmission cut in its header, identifier or signature gives null, not an error |
| Messages.UnknownTypeIsNull | src/main/java/co/nyzo/verifier/Message.java:298-307 | a type value that forValue does not map makes fromBytes give null |
| Messages.NoDecoderReadsNothing | src/main/java/co/nyzo/verifier/Message.java:316-368 | a type without a decoder gives null content and consumes no bytes |
| Messages.SentMessageVerifies | src/main/java/co/nyzo/verifier/Message.java:26-48 | a message signed here, once transmitted and decoded by a receiver, carries a signature that verifies |
| Fetching.BroadcastTargetsExactly | src/main/java/co/nyzo/verifier/Message.java:92-98 | a node is targeted exactly when it is in the mesh, active, and not this node; there are never more targets than mesh nodes |
| Fetching.Broadcast | src/main/java/co/nyzo/verifier/Message.java:89-99 | the loop issues one fetch per target, in mesh order, exactly the filtered list |
| Fetching.ChoosePeer | src/main/java/co/nyzo/verifier/Message.java:101-116 | the random pick is a mesh node that is not this node; nothing is picked exactly when every mesh node is this node |
| Fetching.FetchGoesAhead | src/main/java/co/nyzo/verifier/Message.java:121-122 | a fetch proceeds exactly when the host is not this node's own identifier |
| Fetching.Connect | src/main/java/co/nyzo/verifier/Message.java:128-141 | one to three attempts; it stops at the first that connects, and makes three when none does |
| Fetching.CallbackArgument | src/main/java/co/nyzo/verifier/Message.java:170-176 | the callback gets the response exactly when it is present and valid, and null otherwise |
| Fetching.Fetch | src/main/java/co/nyzo/verifier/Message.java:118-180 | a fetch to this node's own address does nothing; otherwise 1..3 attempts, and a callback with null when no connection was made, else with the null-or-valid rule |
| Fetching.GetResponse | src/main/java/co/nyzo/verifier/Message.java:197-234 | the buffer is messageLength - 4 long, even after a short read (empty when negative); the read calls made are exactly the stream's answers to "what is still missing" (`ReadScript`); the bytes read are their sum, the wait cycles the number that returned 0, and a read failure means the last call returned -1; bytes read never exceed the buffer; the loop ends full, at end of stream, or after 10 empty reads |
| Fetching.ReadScriptCall | src/main/java/co/nyzo/verifier/Message.java:206-219 | each read call was made while the buffer was not full and fewer than 10 calls had returned nothing, asked for the bytes still missing, and only the last call may have hit the end of the stream |
| Fetching.ReadScriptDetermined | src/main/java/co/nyzo/verifier/Message.java:206-219 | the stream alone decides the read calls: two scripts of the same length against the same stream are the same |
| BootstrapResponses.Snapshot | src/main/java/co/nyzo/verifier/messages/BootstrapResponse.java:17-36 | at most 5 hashes, from contiguous heights descending from the highest frozen one, stopping at the first missing height; firstHashHeight is -1 for none, else the lowest collected block's height |
| BootstrapResponses.SizeAgreement | src/main/java/co/nyzo/verifier/messages/BootstrapResponse.java:69-94 | getByteSize = 19 + 41·mesh + 32·hashes + Σ transaction sizes + Σ block sizes, and equals the length of the encoding |
| BootstrapResponses.GetByteSize | src/main/java/co/nyzo/verifier/messages/BootstrapResponse.java:69-94 | the accumulating loops compute the size formula |
| BootstrapResponses.PutNode | src/main/java/co/nyzo/verifier/messages/BootstrapResponse.java:107-110 | a mesh entry is identifier, IP address, port and the full-node flag as 1 or 0: 41 bytes |
| BootstrapResponses.PutNodes | src/main/java/co/nyzo/verifier/messages/BootstrapResponse.java:106-111 | the mesh loop writes every entry, in order |
| BootstrapResponses.PutMeshSection | src/main/java/co/nyzo/verifier/messages/BootstrapResponse.java:104-111 | an int count, then the entries |
| BootstrapResponses.PutHashSection | src/main/java/co/nyzo/verifier/messages/BootstrapResponse.java:113-120 | the first hash height, a one-byte count, then the hashes |
| BootstrapResponses.PutTransactionSection | src/main/java/co/nyzo/verifier/messages/BootstrapResponse.java:122-126 | an int count, then each transaction's bytes |
| BootstrapResponses.PutBlockSection | src/main/java/co/nyzo/verifier/messages/BootstrapResponse.java:128-132 | a short count, then each block's bytes (no balance list) |
| BootstrapResponses.GetBytes | src/main/java/co/nyzo/verifier/messages/BootstrapResponse.java:97-135 | the array of getByteSize() bytes is filled exactly with the four sections in order, with no overflow and no padding |
| BootstrapResponses.ReadNode | src/main/java/co/nyzo/verifier/messages/BootstrapResponse.java:146-153 | reading a mesh entry never moves past the end of the buffer |
| BootstrapResponses.FromByteBuffer | src/main/java/co/nyzo/verifier/messages/BootstrapResponse.java:137-189 | the response when every read succeeds, null when any read throws; the buffer stays where the reads stopped |
| BootstrapResponses.MissingMeshCount | src/main/java/co/nyzo/verifier/messages/BootstrapResponse.java:143 | a buffer too short for the mesh count decodes to null |
| BootstrapResponses.DetachedBytes | src/main/java/co/nyzo/verifier/messages/BootstrapResponse.java:130-132 | dropping balance lists does not change the block bytes sent |
| BootstrapResponses.TransmittedBytes | src/main/java/co/nyzo/verifier/messages/BootstrapResponse.java:97-135 | the response a receiver decodes encodes to the same bytes as the one sent |
| BootstrapResponses.ReadNodeOf | src/main/java/co/nyzo/verifier/messages/BootstrapResponse.java:146-153 | a mesh entry reads back as written: identifier, IP, port, and the flag (written 1/0, read as == 1) |
| BootstrapResponses.NodesReadBack | src/main/java/co/nyzo/verifier/messages/BootstrapResponse.java:145-154 | every mesh entry reads back wherever its bytes stand |
| BootstrapResponses.HashesReadBack | src/main/java/co/nyzo/verifier/messages/BootstrapResponse.java:162-166 | every hash reads back wherever its bytes stand |
| BootstrapResponses.TransactionsReadBack | src/main/java/co/nyzo/verifier/messages/BootstrapResponse.java:171-173 | every transaction reads back, given transactions that round-trip |
| BootstrapResponses.BlocksReadBack | src/main/java/co/nyzo/verifier/messages/BootstrapResponse.java:178-180 | every block reads back without its balance list, given block headers that round-trip |
| BootstrapResponses.MeshSectionOf | src/main/java/co/nyzo/verifier/messages/BootstrapResponse.java:143-154 | the mesh section reads back as written and ends where it was written to end |
| BootstrapResponses.HashSectionOf | src/main/java/co/nyzo/verifier/messages/BootstrapResponse.java:157-166 | firstHashHeight and the hashes read back, given fewer than 128 hashes (signed byte count) |
| BootstrapResponses.TransactionSectionOf | src/main/java/co/nyzo/verifier/messages/BootstrapResponse.java:169-173 | the transaction pool reads back as written |
| BootstrapResponses.BlockSectionOf | src/main/java/co/nyzo/verifier/messages/BootstrapResponse.java:176-180 | the unfrozen blocks read back without balance lists, given fewer than 32768 (signed short count) |
| BootstrapResponses.DecodeSectionsOf | src/main/java/co/nyzo/verifier/messages/BootstrapResponse.java:137-183 | four sections placed one after another decode into the transmitted response |
| BootstrapResponses.DecodeEncode | src/main/java/co/nyzo/verifier/messages/BootstrapResponse.java:137-183 | fromByteBuffer(getBytes()) recovers mesh, firstHashHeight, hashes, transactions and blocks (without balance lists), and stops right after the encoding |
| NodeJoinResponses.WindowStart | src/main/java/co/nyzo/verifier/messages/NodeJoinResponse.java:27 | the window starts at max(1, H - 4): never at Genesis, never more than 4 below H |
| NodeJoinResponses.Snapshot | src/main/java/co/nyzo/verifier/messages/NodeJoinResponse.java:16-33 | the constructor collects Genesis, if present, and then the present blocks of [max(1, H-4), H] in ascending order |
| NodeJoinResponses.WindowBlocksAt | src/main/java/co/nyzo/verifier/messages/NodeJoinResponse.java:27-32 | each window block is the provider's block at the matching present height |
| NodeJoinResponses.PresentHeightsInOrder | src/main/java/co/nyzo/verifier/messages/NodeJoinResponse.java:27-32 | the window's heights lie in range, have a block, and strictly ascend |
| NodeJoinResponses.PresentHeightsCount | src/main/java/co/nyzo/verifier/messages/NodeJoinResponse.java:27-32 | no more blocks than heights in the range |
| NodeJoinResponses.PresentHeightsExactly | src/main/java/co/nyzo/verifier/messages/NodeJoinResponse.java:27-32 | a height is taken exactly when it is in range and has a frozen block (missing heights are skipped) |
| NodeJoinResponses.JoinBlocksAt | src/main/java/co/nyzo/verifier/messages/NodeJoinResponse.java:21-32 | the response's blocks are the provider's blocks at the collected heights, in order |
| NodeJoinResponses.JoinHeightsOrder | src/main/java/co/nyzo/verifier/messages/NodeJoinResponse.java:21-32 | Genesis comes first exactly when it exists, no later block is from height 0, and the heights ascend |
| NodeJoinResponses.JoinHeightsExactly | src/main/java/co/nyzo/verifier/messages/NodeJoinResponse.java:21-32 | a height is included exactly when it has a block and is 0 or within [max(1, H-4), H] |
| NodeJoinResponses.JoinBlocksSize | src/main/java/co/nyzo/verifier/messages/NodeJoinResponse.java:21-32 | at most 6 blocks; none when H < 0 and there is no Genesis block |
| NodeJoinResponses.SizeAgreement | src/main/java/co/nyzo/verifier/messages/NodeJoinResponse.java:44-52 | the encoding is 2 + Σ(block size + balance-list size) bytes, the getByteSize formula |
| NodeJoinResponses.GetByteSize | src/main/java/co/nyzo/verifier/messages/NodeJoinResponse.java:44-52 | the accumulating loop computes the size formula |
| NodeJoinResponses.PutEntry | src/main/java/co/nyzo/verifier/messages/NodeJoinResponse.java:61-62 | each entry is the block's bytes followed by its balance list's bytes |
| NodeJoinResponses.GetBytes | src/main/java/co/nyzo/verifier/messages/NodeJoinResponse.java:55-66 | the array of getByteSize() bytes is exactly a BE16 count followed by the entries in order |
| NodeJoinResponses.ReadEntry | src/main/java/co/nyzo/verifier/messages/NodeJoinResponse.java:79-80 | a decoded block always has its balance list set, and reading never moves past the end |
| NodeJoinResponses.FromByteBuffer | src/main/java/co/nyzo/verifier/messages/NodeJoinResponse.java:68-90 | the response when every read succeeds, null when any read throws |
| NodeJoinResponses.DecodedAttached | src/main/java/co/nyzo/verifier/messages/NodeJoinResponse.java:78-82 | every decoded block carries a balance list |
| NodeJoinResponses.NonPositiveCount | src/main/java/co/nyzo/verifier/messages/NodeJoinResponse.java:73-78 | a count of zero or less gives an empty list, read right after the count |
| NodeJoinResponses.MissingCount | src/main/java/co/nyzo/verifier/messages/NodeJoinResponse.java:73 | a buffer too short for the count decodes to null |
| NodeJoinResponses.ReadEntryOf | src/main/java/co/nyzo/verifier/messages/NodeJoinResponse.java:79-81 | a block and its balance list read back, with the list reattached |
| NodeJoinResponses.EntriesReadBack | src/main/java/co/nyzo/verifier/messages/NodeJoinResponse.java:78-82 | every entry reads back wherever its bytes stand |
| NodeJoinResponses.DecodeEncode | src/main/java/co/nyzo/verifier/messages/NodeJoinResponse.java:68-84 | fromByteBuffer(getBytes()) returns the same blocks in the same order, each with its balance list reattached, and stops right after the encoding |

## Left out

- **Sockets, threads, sleeps and random backoff** (Message.java:124-168). A fetch's network part is a parameter: whether each attempt connects, and what readFromStream returned. An exception while writing the request or reading the response leaves the response null (Message.java:152-161), which an `exchange` of None stands for. An exception from closing the socket is caught on its own and keeps the response already read (Message.java:163-167); the model, which has no close, keeps it too.
- **MessageQueue delivery and NodeManager's connection counters.** These are shared state updated from many threads. `Fetching.Fetch` reports what would be queued.
- **The clock, the node's own key, Random.nextInt, MessageType.forValue, NodeManager.identifierForIpAddress and the chain-state providers.**
  - These are parameters.
  - The random index is a nondeterministic choice.
  - A forValue result of null makes the remote constructor throw, which `Parse` treats as a failure.
- **Signing and verification internals.** `Crypto.Sound` is the only property assumed, and only where a lemma says so.
- **Serialisation of Block, Transaction, BalanceList and the other payload classes.** These are not part of this model.
  - Their sizes are the lengths of their encodings.
  - An external decoder that returns null is treated like one that throws. This changes the outcome in three places. In the source, a null transaction or block in a bootstrap response, or a null balance list in a node-join response, stays in the decoded response, and the remote constructor's getBytesForSigning then throws a NullPointerException (BootstrapResponse.java:84, 90; NodeJoinResponse.java:48), so fromBytes gives null; the model instead ends the response's decode, gives null content, and may still build the message. A null block in a node-join response gives null content in both, because `setBalanceList` on it throws inside the response's own catch (NodeJoinResponse.java:79, 85); but Java reads the balance list before that call fails, so the source's position is after the balance list while the model's is right after the block, and the identifier and signature are read from different offsets. A null from another payload decoder is, in the source, null content and a message built after it; the model gives no message.
- **The bytes getResponse copies.**
  - Fetching.GetResponse: it models the read calls, how many bytes each returned and the array length, not which bytes are copied into the array.
  - An exception inside the read loop is treated like a read that returns -1.
  - The allocation failure for a huge wrapped length is out of scope.
- **Java int arithmetic in the sizes.** getByteSize and getBytesForTransmission can overflow `int` for contents near 2 GB.
  - The model's sizes are unbounded.
  - The length field is still written modulo 2^32 (`IntBytes`).
  - `Messages.TransmissionLayout` requires the size to fit in an `int`.
- **Count fields that wrap.**
  - BootstrapResponses.DecodeEncode: requires `CountsFit` (fewer than 128 hashes and 32768 unfrozen blocks). A larger list is written with a wrapped count, which does not read back.
  - NodeJoinResponses.DecodeEncode: requires fewer than 32768 blocks, for the same reason.
  - The snapshots produce at most 5 hashes and 6 blocks.
- NodeJoinResponses.GetBytes, NodeJoinResponses.GetByteSize: require every block to carry a balance list (`Attached`). A missing one is a NullPointerException in the source.
- Messages.ContentByteSize, Messages.PutContent, Messages.PutSignedRegion, Messages.Message.Local, Messages.Message.Remote, Messages.Message.Sign, Messages.Message.GetBytesForSigning, Messages.Message.GetBytesForTransmission: require `Messages.Writable`, the same balance-list requirement for node-join content, for the same reason.
- **The height loops with `long`.** They are over unbounded integers.
  - NodeJoinResponses.Snapshot: the source loop does not end when the highest frozen height is Long.MAX_VALUE (`i++` wraps), while the model's ends. For H below Long.MIN_VALUE + 4, `H - 4L` wraps to a large positive value and the source's window starts there, where the model's starts at 1; the loop then runs zero times in both, as the model's does for any negative H. The blocks collected are the same for every H other than Long.MAX_VALUE.
  - BootstrapResponses.Snapshot: `height--` cannot wrap within five steps from a valid height, except from heights below Long.MIN_VALUE + 5, which no frozen chain reaches.
- Messages.TruncatedTransmission: covers cuts in the header, identifier or signature only. Whether a cut inside the content fails depends on the content's own decoder, which is not part of this model.
- **Logging and `toString`.**

=== FILE: bootstrap_response.dfy ===
/**
 * BootstrapResponse: the snapshot a verifier sends to a node that is joining
 * the mesh. It carries the mesh, the hashes of up to five of the highest
 * frozen blocks, the transaction pool and the unfrozen block pool, each list
 * preceded by its own count field (int, byte, int, short).
 */
module BootstrapResponses {
  import opened Wrappers
  import opened Bytes
  import opened Buffers
  import opened Crypto
  import opened External
  import FieldByteSize

  datatype BootstrapResponse = BootstrapResponse(
    mesh: seq<Node>,
    firstHashHeight: Int64,
    frozenBlockHashes: seq<Hash>,
    transactionPool: seq<Transaction>,
    unfrozenBlockPool: seq<Block>)

  /** The most hashes the snapshot collects. */
  const MaxHashes: nat := 5

  /** Every block the provider returns sits at the height it was asked for. */
  ghost predicate Consistent(blockAt: int -> Option<Block>)
  {
    forall h :: blockAt(h).Some? ==> blockAt(h).value.header.height == h
  }

  /** The hash of the block a provider returns at a height, if there is one. */
  function HashAt(blockAt: int -> Option<Block>, height: int): Option<Hash>
  {
    match blockAt(height)
    case Some(b) => Some(b.header.hash)
    case None => None
  }

  /**
   * The snapshot constructor. The chain-state providers are parameters: the
   * mesh, the highest frozen height, the frozen block at a height (None for
   * null), the transaction pool and the unfrozen blocks.
   */
  method Snapshot(mesh: seq<Node>, highestFrozen: Int64, frozenBlockAt: int -> Option<Block>,
                  transactionPool: seq<Transaction>, unfrozenBlockPool: seq<Block>)
    returns (r: BootstrapResponse)
    ensures r.mesh == mesh && r.transactionPool == transactionPool && r.unfrozenBlockPool == unfrozenBlockPool
    ensures |r.frozenBlockHashes| <= MaxHashes
    ensures forall i :: 0 <= i < |r.frozenBlockHashes| ==>
              HashAt(frozenBlockAt, highestFrozen - i) == Some(r.frozenBlockHashes[i])
    ensures |r.frozenBlockHashes| < MaxHashes ==> frozenBlockAt(highestFrozen - |r.frozenBlockHashes|).None?
    ensures r.frozenBlockHashes == [] ==> r.firstHashHeight == -1
    ensures r.frozenBlockHashes != [] ==>
              var lowest := frozenBlockAt(highestFrozen - |r.frozenBlockHashes| + 1);
              lowest.Some? && r.firstHashHeight == lowest.value.header.height
    ensures Consistent(frozenBlockAt) && r.frozenBlockHashes != [] ==>
              r.firstHashHeight == highestFrozen - |r.frozenBlockHashes| + 1
  {
    var hashes: seq<Hash> := [];
    var height: int := highestFrozen;
    var block := frozenBlockAt(height);
    var firstHashHeight: Int64 := -1;
    while |hashes| < MaxHashes && block.Some?
      invariant |hashes| <= MaxHashes && height == highestFrozen - |hashes| && block == frozenBlockAt(height)
      invariant forall i :: 0 <= i < |hashes| ==> HashAt(frozenBlockAt, highestFrozen - i) == Some(hashes[i])
      invariant hashes == [] ==> firstHashHeight == -1
      invariant hashes != [] ==>
                  var lowest := frozenBlockAt(highestFrozen - |hashes| + 1);
                  lowest.Some? && firstHashHeight == lowest.value.header.height
      decreases MaxHashes - |hashes|
    {
      hashes := hashes + [block.value.header.hash];
      firstHashHeight := block.value.header.height;
      height := height - 1;
      block := frozenBlockAt(height);
    }
    r := BootstrapResponse(mesh, firstHashHeight, hashes, transactionPool, unfrozenBlockPool);
  }

  /** A peer record on the wire: identifier, IP address, port, and the full-node flag as 1 or 0. */
  function NodeBytes(n: Node): (r: seq<Byte>)
    ensures |r| == FieldByteSize.Identifier + FieldByteSize.IpAddress + FieldByteSize.Port + FieldByteSize.BooleanField
  {
    n.identifier + n.ipAddress + IntBytes(n.port) + ByteBytes(if n.fullNode then 1 else 0)
  }

  function HashBytes(h: Hash): seq<Byte> { h }

  /** The bytes getBytes writes, in order: each list after its count field. */
  function Encode(r: BootstrapResponse, f: Serializers): seq<Byte>
  {
    MeshSection(r) + HashSection(r) + TransactionSection(r, f) + BlockSection(r, f)
  }

  function MeshSection(r: BootstrapResponse): seq<Byte>
  {
    IntBytes(|r.mesh|) + Flatten(r.mesh, NodeBytes)
  }

  /** The first hash height, then the hash count as one byte, then the hashes. */
  function HashSection(r: BootstrapResponse): seq<Byte>
  {
    LongBytes(r.firstHashHeight) + ByteBytes(|r.frozenBlockHashes|) + Flatten(r.frozenBlockHashes, HashBytes)
  }

  function TransactionSection(r: BootstrapResponse, f: Serializers): seq<Byte>
  {
    IntBytes(|r.transactionPool|) + Flatten(r.transactionPool, f.transactionBytes)
  }

  /** The block count as a short, then each block without its balance list. */
  function BlockSection(r: BootstrapResponse, f: Serializers): seq<Byte>
  {
    ShortBytes(|r.unfrozenBlockPool|) + Flatten(r.unfrozenBlockPool, BlockEncoder(f))
  }

  /** The getByteSize formula. */
  function ByteSize(r: BootstrapResponse, f: Serializers): nat
  {
    FieldByteSize.NodeListLength
    + |r.mesh| * (FieldByteSize.Identifier + FieldByteSize.IpAddress + FieldByteSize.Port + FieldByteSize.BooleanField)
    + FieldByteSize.BlockHeight
    + FieldByteSize.HashListLength + |r.frozenBlockHashes| * FieldByteSize.Hash
    + FieldByteSize.TransactionPoolLength + TotalSize(r.transactionPool, f.transactionBytes)
    + FieldByteSize.UnfrozenBlockPoolLength + TotalSize(r.unfrozenBlockPool, BlockEncoder(f))
  }

  /** getByteSize agrees exactly with what getBytes writes. */
  lemma MeshBytesLength(mesh: seq<Node>)
    ensures |Flatten(mesh, NodeBytes)| == 41 * |mesh|
  {
    FlattenFixedSize(mesh, NodeBytes, 41);
  }

  lemma HashBytesLength(hashes: seq<Hash>)
    ensures |Flatten(hashes, HashBytes)| == 32 * |hashes|
  {
    FlattenFixedSize(hashes, HashBytes, 32);
  }

  lemma SizeAgreement(r: BootstrapResponse, f: Serializers)
    ensures |Encode(r, f)| == ByteSize(r, f)
    ensures ByteSize(r, f) == 19 + 41 * |r.mesh| + 32 * |r.frozenBlockHashes|
                              + TotalSize(r.transactionPool, f.transactionBytes)
                              + TotalSize(r.unfrozenBlockPool, BlockEncoder(f))
  {
    MeshBytesLength(r.mesh);
    HashBytesLength(r.frozenBlockHashes);
    FlattenSize(r.transactionPool, f.transactionBytes);
    FlattenSize(r.unfrozenBlockPool, BlockEncoder(f));
  }

  method GetByteSize(r: BootstrapResponse, f: Serializers) returns (size: nat)
    ensures size == ByteSize(r, f)
  {
    size := FieldByteSize.NodeListLength + |r.mesh| *
            (FieldByteSize.Identifier + FieldByteSize.IpAddress + FieldByteSize.Port + FieldByteSize.BooleanField);
    size := size + FieldByteSize.BlockHeight;
    size := size + FieldByteSize.HashListLength + |r.frozenBlockHashes| * FieldByteSize.Hash;
    size := size + FieldByteSize.TransactionPoolLength;
    ghost var base := size;
    var i := 0;
    while i < |r.transactionPool|
      invariant i <= |r.transactionPool|
      invariant size == base + TotalSize(r.transactionPool[..i], f.transactionBytes)
    {
      assert r.transactionPool[..i + 1][..i] == r.transactionPool[..i];
      size := size + |f.transactionBytes(r.transactionPool[i])|;
      i := i + 1;
    }
    assert r.transactionPool[..i] == r.transactionPool;
    size := size + FieldByteSize.UnfrozenBlockPoolLength;
    base := size;
    i := 0;
    while i < |r.unfrozenBlockPool|
      invariant i <= |r.unfrozenBlockPool|
      invariant size == base + TotalSize(r.unfrozenBlockPool[..i], BlockEncoder(f))
    {
      assert r.unfrozenBlockPool[..i + 1][..i] == r.unfrozenBlockPool[..i];
      size := size + |f.blockBytes(r.unfrozenBlockPool[i].header)|;
      i := i + 1;
    }
    assert r.unfrozenBlockPool[..i] == r.unfrozenBlockPool;
  }

  /** One mesh entry: identifier, IP address, port, and the full-node flag as a byte. */
  method PutNode(buffer: ByteWriter, node: Node)
    requires buffer.Valid() && buffer.pos + 41 <= buffer.data.Length
    modifies buffer`pos, buffer.data
    ensures buffer.Valid() && buffer.pos == old(buffer.pos) + 41
    ensures buffer.Written() == old(buffer.Written()) + NodeBytes(node)
  {
    buffer.Put(node.identifier);
    buffer.Put(node.ipAddress);
    buffer.PutInt(node.port);
    buffer.PutByte(if node.fullNode then 1 else 0);
  }

  /** The mesh loop of getBytes: each node's identifier, IP address, port and full-node flag. */
  method PutNodes(buffer: ByteWriter, mesh: seq<Node>)
    requires buffer.Valid() && buffer.pos + 41 * |mesh| <= buffer.data.Length
    modifies buffer`pos, buffer.data
    ensures buffer.Valid() && buffer.pos == old(buffer.pos) + 41 * |mesh|
    ensures buffer.Written() == old(buffer.Written()) + Flatten(mesh, NodeBytes)
  {
    ghost var start := buffer.Written();
    var i := 0;
    while i < |mesh|
      invariant i <= |mesh| && buffer.Valid() && buffer.pos == old(buffer.pos) + 41 * i
      invariant buffer.Written() == start + Flatten(mesh[..i], NodeBytes)
    {
      ghost var before := buffer.Written();
      PutNode(buffer, mesh[i]);
      FlattenAppend(start, mesh, NodeBytes, i, before, buffer.Written());
      i := i + 1;
    }
    assert mesh[..i] == mesh;
  }

  method PutMeshSection(buffer: ByteWriter, r: BootstrapResponse)
    requires buffer.Valid() && buffer.pos + |MeshSection(r)| <= buffer.data.Length
    modifies buffer`pos, buffer.data
    ensures buffer.Valid() && buffer.pos == old(buffer.pos) + |MeshSection(r)|
    ensures buffer.Written() == old(buffer.Written()) + MeshSection(r)
  {
    MeshBytesLength(r.mesh);
    ghost var start := buffer.Written();
    buffer.PutInt(|r.mesh|);
    PutNodes(buffer, r.mesh);
    AppendTwice(start, IntBytes(|r.mesh|), Flatten(r.mesh, NodeBytes));
  }

  method PutHashSection(buffer: ByteWriter, r: BootstrapResponse)
    requires buffer.Valid() && buffer.pos + |HashSection(r)| <= buffer.data.Length
    modifies buffer`pos, buffer.data
    ensures buffer.Valid() && buffer.pos == old(buffer.pos) + |HashSection(r)|
    ensures buffer.Written() == old(buffer.Written()) + HashSection(r)
  {
    ghost var start := buffer.Written();
    buffer.PutLong(r.firstHashHeight);
    buffer.PutByte(|r.frozenBlockHashes|);
    AppendTwice(start, LongBytes(r.firstHashHeight), ByteBytes(|r.frozenBlockHashes|));
    buffer.PutAll(r.frozenBlockHashes, HashBytes);
    AppendTwice(start, LongBytes(r.firstHashHeight) + ByteBytes(|r.frozenBlockHashes|), Flatten(r.frozenBlockHashes, HashBytes));
  }

  method PutTransactionSection(buffer: ByteWriter, r: BootstrapResponse, f: Serializers)
    requires buffer.Valid() && buffer.pos + |TransactionSection(r, f)| <= buffer.data.Length
    modifies buffer`pos, buffer.data
    ensures buffer.Valid() && buffer.pos == old(buffer.pos) + |TransactionSection(r, f)|
    ensures buffer.Written() == old(buffer.Written()) + TransactionSection(r, f)
  {
    ghost var start := buffer.Written();
    buffer.PutInt(|r.transactionPool|);
    buffer.PutAll(r.transactionPool, f.transactionBytes);
    AppendTwice(start, IntBytes(|r.transactionPool|), Flatten(r.transactionPool, f.transactionBytes));
  }

  method PutBlockSection(buffer: ByteWriter, r: BootstrapResponse, f: Serializers)
    requires buffer.Valid() && buffer.pos + |BlockSection(r, f)| <= buffer.data.Length
    modifies buffer`pos, buffer.data
    ensures buffer.Valid() && buffer.pos == old(buffer.pos) + |BlockSection(r, f)|
    ensures buffer.Written() == old(buffer.Written()) + BlockSection(r, f)
  {
    ghost var start := buffer.Written();
    buffer.PutShort(|r.unfrozenBlockPool|);
    buffer.PutAll(r.unfrozenBlockPool, BlockEncoder(f));
    AppendTwice(start, ShortBytes(|r.unfrozenBlockPool|), Flatten(r.unfrozenBlockPool, BlockEncoder(f)));
  }

  /** getBytes: an array of getByteSize() bytes, filled completely with the encoding. */
  method GetBytes(r: BootstrapResponse, f: Serializers) returns (result: array<Byte>)
    ensures fresh(result) && result[..] == Encode(r, f)
  {
    var size := GetByteSize(r, f);
    SizeAgreement(r, f);
    ghost var m, h, t, b := MeshSection(r), HashSection(r), TransactionSection(r, f), BlockSection(r, f);
    assert size == |m| + |h| + |t| + |b|;
    var buffer := new ByteWriter(size);
    assert buffer.Written() == [];
    PutMeshSection(buffer, r);
    assert buffer.Written() == m;
    PutHashSection(buffer, r);
    assert buffer.Written() == m + h;
    PutTransactionSection(buffer, r, f);
    assert buffer.Written() == m + h + t;
    PutBlockSection(buffer, r, f);
    assert buffer.Written() == m + h + t + b == Encode(r, f);
    assert buffer.data[..] == buffer.Written();
    result := buffer.data;
  }

  /** One mesh entry as fromByteBuffer reads it: the full-node flag is true only for the byte 1. */
  function ReadNode(s: seq<Byte>, pos: nat): (r: Parsed<Node>)
    ensures pos <= |s| ==> r.pos <= |s|
  {
    var identifier :- Take(s, pos, FieldByteSize.Identifier);
    var ipAddress :- Take(s, identifier.1, FieldByteSize.IpAddress);
    var port :- TakeInt(s, ipAddress.1);
    var flag :- TakeByte(s, port.1);
    Parsed(Node(identifier.0, ipAddress.0, port.0, flag.0 == 1), flag.1)
  }

  function ReadHash(s: seq<Byte>, pos: nat): (r: Parsed<Hash>)
    ensures pos <= |s| ==> r.pos <= |s|
  {
    var hash :- Take(s, pos, FieldByteSize.Hash);
    Parsed(hash.0, hash.1)
  }

  /** Transaction.fromByteBuffer at the current position. */
  function TransactionReader(f: Serializers): (seq<Byte>, nat) -> Parsed<Transaction>
  {
    (s: seq<Byte>, pos: nat) => ReadWith(f.readTransaction, s, pos)
  }

  /** Block.fromByteBuffer: a block with no balance list attached. */
  function ReadBlock(f: Serializers, s: seq<Byte>, pos: nat): (r: Parsed<Block>)
    ensures pos <= |s| ==> r.pos <= |s|
    ensures r.Parsed? ==> r.value.balanceList.None?
  {
    var header :- ReadWith(f.readBlock, s, pos);
    Parsed(Block(header.0, None), header.1)
  }

  function BlockReader(f: Serializers): (seq<Byte>, nat) -> Parsed<Block>
  {
    (s: seq<Byte>, pos: nat) => ReadBlock(f, s, pos)
  }

  /**
   * What fromByteBuffer reads at `pos`: each count read signed (a negative
   * count reads no items), each list item by item. A read that throws ends the
   * decode where that read stopped.
   */
  function Decode(s: seq<Byte>, pos: nat, f: Serializers): Parsed<BootstrapResponse>
  {
    var mesh :- ReadMeshSection(s, pos);
    var hashes :- ReadHashSection(s, mesh.1);
    var transactions :- ReadTransactionSection(s, hashes.1, f);
    var blocks :- ReadBlockSection(s, transactions.1, f);
    Parsed(BootstrapResponse(mesh.0, hashes.0.0, hashes.0.1, transactions.0, blocks.0), blocks.1)
  }

  function ReadMeshSection(s: seq<Byte>, pos: nat): Parsed<seq<Node>>
  {
    var meshSize :- TakeInt(s, pos);
    ReadList(s, meshSize.1, meshSize.0, [], ReadNode)
  }

  /** The first hash height, then the hashes. */
  function ReadHashSection(s: seq<Byte>, pos: nat): Parsed<(Int64, seq<Hash>)>
  {
    var firstHashHeight :- TakeLong(s, pos);
    var numberOfHashes :- TakeByte(s, firstHashHeight.1);
    var hashes :- ReadList(s, numberOfHashes.1, numberOfHashes.0, [], ReadHash);
    Parsed((firstHashHeight.0, hashes.0), hashes.1)
  }

  function ReadTransactionSection(s: seq<Byte>, pos: nat, f: Serializers): Parsed<seq<Transaction>>
  {
    var numberOfTransactions :- TakeInt(s, pos);
    ReadList(s, numberOfTransactions.1, numberOfTransactions.0, [], TransactionReader(f))
  }

  function ReadBlockSection(s: seq<Byte>, pos: nat, f: Serializers): Parsed<seq<Block>>
  {
    var numberOfBlocks :- TakeShort(s, pos);
    ReadList(s, numberOfBlocks.1, numberOfBlocks.0, [], BlockReader(f))
  }

  lemma ReadersStayWithin(s: seq<Byte>, f: Serializers)
    ensures StaysWithin(ReadNode, s) && StaysWithin(ReadHash, s)
    ensures StaysWithin(TransactionReader(f), s) && StaysWithin(BlockReader(f), s)
  {
  }

  /**
   * fromByteBuffer: the response, or null when any read throws; the catch
   * leaves the buffer where the failing read stopped.
   */
  method FromByteBuffer(buffer: ByteReader, f: Serializers) returns (r: Option<BootstrapResponse>)
    requires buffer.Valid()
    modifies buffer`pos
    ensures buffer.Valid()
    ensures r == Decode(buffer.data, old(buffer.pos), f).ToOption()
    ensures buffer.pos == Decode(buffer.data, old(buffer.pos), f).pos
  {
    ReadersStayWithin(buffer.data, f);
    var meshSize := buffer.GetInt();
    if meshSize.Failed? { return None; }
    var mesh := buffer.GetList(meshSize.value, ReadNode);
    if mesh.Failed? { return None; }
    var firstHashHeight := buffer.GetLong();
    if firstHashHeight.Failed? { return None; }
    var numberOfHashes := buffer.GetByte();
    if numberOfHashes.Failed? { return None; }
    var hashes := buffer.GetList(numberOfHashes.value, ReadHash);
    if hashes.Failed? { return None; }
    var numberOfTransactions := buffer.GetInt();
    if numberOfTransactions.Failed? { return None; }
    var transactions := buffer.GetList(numberOfTransactions.value, TransactionReader(f));
    if transactions.Failed? { return None; }
    var numberOfBlocks := buffer.GetShort();
    if numberOfBlocks.Failed? { return None; }
    var blocks := buffer.GetList(numberOfBlocks.value, BlockReader(f));
    if blocks.Failed? { return None; }
    r := Some(BootstrapResponse(mesh.value, firstHashHeight.value, hashes.value, transactions.value, blocks.value));
  }

  /** A buffer without room for the mesh count decodes to nothing, and the position stays put. */
  lemma MissingMeshCount(s: seq<Byte>, pos: nat, f: Serializers)
    requires |s| < pos + 4
    ensures Decode(s, pos, f) == Failed(pos)
  {
  }

  /** Blocks as a receiver sees them: the balance lists, which are not sent, are gone. */
  function Detached(blocks: seq<Block>): (r: seq<Block>)
    ensures |r| == |blocks|
    ensures forall i :: 0 <= i < |r| ==> r[i] == Unattached(blocks[i])
  {
    seq(|blocks|, i requires 0 <= i < |blocks| => Unattached(blocks[i]))
  }

  /** The response a receiver decodes from what this one sends. */
  function Transmitted(r: BootstrapResponse): BootstrapResponse
  {
    r.(unfrozenBlockPool := Detached(r.unfrozenBlockPool))
  }

  /** What a receiver decodes is sent as the same bytes: balance lists were never part of them. */
  lemma TransmittedBytes(r: BootstrapResponse, f: Serializers)
    ensures Encode(Transmitted(r), f) == Encode(r, f)
  {
    DetachedBytes(f, r.unfrozenBlockPool);
    assert BlockSection(Transmitted(r), f) == BlockSection(r, f);
  }

  /** Counts that survive their count fields: int, signed byte, int, signed short. */
  predicate CountsFit(r: BootstrapResponse)
  {
    && |r.mesh| < 0x8000_0000
    && |r.frozenBlockHashes| < 0x80
    && |r.transactionPool| < 0x8000_0000
    && |r.unfrozenBlockPool| < 0x8000
  }

  /** A mesh entry reads back as written, the full-node flag included. */
  lemma ReadNodeOf(n: Node, s: seq<Byte>, pos: nat)
    requires At(NodeBytes(n), s, pos)
    ensures ReadNode(s, pos) == Parsed(n, pos + |NodeBytes(n)|)
  {
    var flag := if n.fullNode then 1 else 0;
    AtSplit(n.identifier + n.ipAddress + IntBytes(n.port), ByteBytes(flag), s, pos, pos + 40);
    AtSplit(n.identifier + n.ipAddress, IntBytes(n.port), s, pos, pos + 36);
    AtSplit(n.identifier, n.ipAddress, s, pos, pos + 32);
    TakeOf(n.identifier, s, pos);
    TakeOf(n.ipAddress, s, pos + 32);
    TakeIntOf(n.port, s, pos + 36);
    TakeByteOf(flag, s, pos + 40);
  }

  lemma NodesReadBack(mesh: seq<Node>, s: seq<Byte>)
    ensures ReadsBack(ReadNode, NodeBytes, mesh, s)
  {
    forall i, p: nat | 0 <= i < |mesh| && At(NodeBytes(mesh[i]), s, p)
      ensures ReadNode(s, p) == Parsed(mesh[i], p + |NodeBytes(mesh[i])|)
    {
      ReadNodeOf(mesh[i], s, p);
    }
  }

  lemma HashesReadBack(hashes: seq<Hash>, s: seq<Byte>)
    ensures ReadsBack(ReadHash, HashBytes, hashes, s)
  {
    forall i, p: nat | 0 <= i < |hashes| && At(HashBytes(hashes[i]), s, p)
      ensures ReadHash(s, p) == Parsed(hashes[i], p + |HashBytes(hashes[i])|)
    {
      TakeOf(hashes[i], s, p);
    }
  }

  lemma TransactionsReadBack(f: Serializers, transactions: seq<Transaction>, s: seq<Byte>)
    requires RoundTrips(f)
    ensures ReadsBack(TransactionReader(f), f.transactionBytes, transactions, s)
  {
    forall i, p: nat | 0 <= i < |transactions| && At(f.transactionBytes(transactions[i]), s, p)
      ensures TransactionReader(f)(s, p) == Parsed(transactions[i], p + |f.transactionBytes(transactions[i])|)
    {
      AtRest(f.transactionBytes(transactions[i]), s, p);
      assert f.readTransaction(s[p..]) == Done(transactions[i], |f.transactionBytes(transactions[i])|);
    }
  }

  lemma BlocksReadBack(f: Serializers, blocks: seq<Block>, s: seq<Byte>)
    requires RoundTrips(f)
    ensures ReadsBack(BlockReader(f), BlockEncoder(f), Detached(blocks), s)
  {
    var sent := Detached(blocks);
    forall i, p: nat | 0 <= i < |sent| && At(BlockEncoder(f)(sent[i]), s, p)
      ensures BlockReader(f)(s, p) == Parsed(sent[i], p + |BlockEncoder(f)(sent[i])|)
    {
      var h := sent[i].header;
      AtRest(f.blockBytes(h), s, p);
      assert f.readBlock(s[p..]) == Done(h, |f.blockBytes(h)|);
    }
  }

  /** Dropping balance lists does not change what is sent. */
  lemma {:induction false} DetachedBytes(f: Serializers, blocks: seq<Block>)
    ensures Flatten(Detached(blocks), BlockEncoder(f)) == Flatten(blocks, BlockEncoder(f))
    decreases |blocks|
  {
    if blocks != [] {
      var init := blocks[..|blocks| - 1];
      assert Detached(blocks)[..|blocks| - 1] == Detached(init);
      DetachedBytes(f, init);
    }
  }

  lemma MeshSectionOf(r: BootstrapResponse, s: seq<Byte>, pos: nat, next: nat)
    requires |r.mesh| < 0x8000_0000
    requires At(MeshSection(r), s, pos) && next == pos + |MeshSection(r)|
    ensures ReadMeshSection(s, pos) == Parsed(r.mesh, next)
  {
    AtSplit(IntBytes(|r.mesh|), Flatten(r.mesh, NodeBytes), s, pos, pos + 4);
    TakeIntOf(|r.mesh|, s, pos);
    NodesReadBack(r.mesh, s);
    ReadListOf(r.mesh, NodeBytes, ReadNode, s, pos + 4, next, []);
    assert [] + r.mesh == r.mesh;
  }

  lemma HashSectionOf(r: BootstrapResponse, s: seq<Byte>, pos: nat, next: nat)
    requires |r.frozenBlockHashes| < 0x80
    requires At(HashSection(r), s, pos) && next == pos + |HashSection(r)|
    ensures ReadHashSection(s, pos) == Parsed((r.firstHashHeight, r.frozenBlockHashes), next)
  {
    var count := ByteBytes(|r.frozenBlockHashes|);
    var hashes := Flatten(r.frozenBlockHashes, HashBytes);
    AtSplit(LongBytes(r.firstHashHeight) + count, hashes, s, pos, pos + 9);
    AtSplit(LongBytes(r.firstHashHeight), count, s, pos, pos + 8);
    TakeLongOf(r.firstHashHeight, s, pos);
    TakeByteOf(|r.frozenBlockHashes|, s, pos + 8);
    HashesReadBack(r.frozenBlockHashes, s);
    ReadListOf(r.frozenBlockHashes, HashBytes, ReadHash, s, pos + 9, next, []);
    assert [] + r.frozenBlockHashes == r.frozenBlockHashes;
  }

  lemma TransactionSectionOf(r: BootstrapResponse, f: Serializers, s: seq<Byte>, pos: nat, next: nat)
    requires RoundTrips(f) && |r.transactionPool| < 0x8000_0000
    requires At(TransactionSection(r, f), s, pos) && next == pos + |TransactionSection(r, f)|
    ensures ReadTransactionSection(s, pos, f) == Parsed(r.transactionPool, next)
  {
    AtSplit(IntBytes(|r.transactionPool|), Flatten(r.transactionPool, f.transactionBytes), s, pos, pos + 4);
    TakeIntOf(|r.transactionPool|, s, pos);
    TransactionsReadBack(f, r.transactionPool, s);
    ReadListOf(r.transactionPool, f.transactionBytes, TransactionReader(f), s, pos + 4, next, []);
    assert [] + r.transactionPool == r.transactionPool;
  }

  lemma BlockSectionOf(r: BootstrapResponse, f: Serializers, s: seq<Byte>, pos: nat, next: nat)
    requires RoundTrips(f) && |r.unfrozenBlockPool| < 0x8000
    requires At(BlockSection(r, f), s, pos) && next == pos + |BlockSection(r, f)|
    ensures ReadBlockSection(s, pos, f) == Parsed(Detached(r.unfrozenBlockPool), next)
  {
    var sent := Detached(r.unfrozenBlockPool);
    AtSplit(ShortBytes(|r.unfrozenBlockPool|), Flatten(r.unfrozenBlockPool, BlockEncoder(f)), s, pos, pos + 2);
    TakeShortOf(|r.unfrozenBlockPool|, s, pos);
    DetachedBytes(f, r.unfrozenBlockPool);
    BlocksReadBack(f, r.unfrozenBlockPool, s);
    ReadListOf(sent, BlockEncoder(f), BlockReader(f), s, pos + 2, next, []);
    assert [] + sent == sent;
  }

  /** Each section of the encoding stands in `s` where the one before it ends: the first at p0, the last ending at p4. */
  ghost predicate SectionsAt(r: BootstrapResponse, f: Serializers, s: seq<Byte>, p0: nat, p1: nat, p2: nat, p3: nat, p4: nat)
  {
    && At(MeshSection(r), s, p0) && p1 == p0 + |MeshSection(r)|
    && At(HashSection(r), s, p1) && p2 == p1 + |HashSection(r)|
    && At(TransactionSection(r, f), s, p2) && p3 == p2 + |TransactionSection(r, f)|
    && At(BlockSection(r, f), s, p3) && p4 == p3 + |BlockSection(r, f)|
  }

  lemma EncodeSplit(r: BootstrapResponse, f: Serializers, s: seq<Byte>, p0: nat, p1: nat, p2: nat, p3: nat, p4: nat)
    requires At(Encode(r, f), s, p0)
    requires p1 == p0 + |MeshSection(r)| && p2 == p1 + |HashSection(r)|
    requires p3 == p2 + |TransactionSection(r, f)| && p4 == p3 + |BlockSection(r, f)|
    ensures SectionsAt(r, f, s, p0, p1, p2, p3, p4)
  {
    var m, h, t, b := MeshSection(r), HashSection(r), TransactionSection(r, f), BlockSection(r, f);
    AtSplit(m + h + t, b, s, p0, p3);
    AtSplit(m + h, t, s, p0, p2);
    AtSplit(m, h, s, p0, p1);
  }

  lemma DecodeOfSections(s: seq<Byte>, pos: nat, f: Serializers, mesh: seq<Node>, p1: nat, hashes: (Int64, seq<Hash>), p2: nat,
                         transactions: seq<Transaction>, p3: nat, blocks: seq<Block>, p4: nat)
    requires ReadMeshSection(s, pos) == Parsed(mesh, p1)
    requires ReadHashSection(s, p1) == Parsed(hashes, p2)
    requires ReadTransactionSection(s, p2, f) == Parsed(transactions, p3)
    requires ReadBlockSection(s, p3, f) == Parsed(blocks, p4)
    ensures Decode(s, pos, f) == Parsed(BootstrapResponse(mesh, hashes.0, hashes.1, transactions, blocks), p4)
  {
  }

  /** The four sections, each where the one before it ends, read back as sent. */
  lemma DecodeSectionsOf(r: BootstrapResponse, f: Serializers, s: seq<Byte>, p0: nat, p1: nat, p2: nat, p3: nat, p4: nat)
    requires RoundTrips(f) && CountsFit(r) && SectionsAt(r, f, s, p0, p1, p2, p3, p4)
    ensures Decode(s, p0, f) == Parsed(Transmitted(r), p4)
  {
    MeshSectionOf(r, s, p0, p1);
    HashSectionOf(r, s, p1, p2);
    TransactionSectionOf(r, f, s, p2, p3);
    BlockSectionOf(r, f, s, p3, p4);
    DecodeOfSections(s, p0, f, r.mesh, p1, (r.firstHashHeight, r.frozenBlockHashes), p2,
                     r.transactionPool, p3, Detached(r.unfrozenBlockPool), p4);
  }

  /**
   * fromByteBuffer reads back what getBytes wrote, stopping right after it: the
   * mesh (ports and full-node flags included), the first hash height, the
   * hashes, the transactions and the blocks, which arrive without balance lists.
   */
  lemma DecodeEncode(r: BootstrapResponse, f: Serializers, s: seq<Byte>, pos: nat)
    requires RoundTrips(f) && CountsFit(r)
    requires At(Encode(r, f), s, pos)
    ensures Decode(s, pos, f) == Parsed(Transmitted(r), pos + |Encode(r, f)|)
  {
    var m, h, t, b := MeshSection(r), HashSection(r), TransactionSection(r, f), BlockSection(r, f);
    assert |Encode(r, f)| == |m| + |h| + |t| + |b|;
    var p1 := pos + |m|;
    var p2 := p1 + |h|;
    var p3 := p2 + |t|;
    var p4 := p3 + |b|;
    EncodeSplit(r, f, s, pos, p1, p2, p3, p4);
    DecodeSectionsOf(r, f, s, pos, p1, p2, p3, p4);
  }
}

=== FILE: buffers.dfy ===
/**
 * A model of java.nio.ByteBuffer as the serialisers use it: a writer that fills
 * a pre-sized array through a cursor, and a reader that advances a position over
 * received bytes. A relative get that runs past the limit throws
 * BufferUnderflowException and leaves the position where it was; the functional
 * reads below record that position in `Failed`.
 */
module Buffers {
  import opened Wrappers
  import opened Bytes

  /** The outcome of reading at a position: a value and the next position, or the position of the failed read. */
  datatype Parsed<+T> = Parsed(value: T, pos: nat) | Failed(pos: nat) {
    predicate IsFailure() { Failed? }
    function PropagateFailure<U>(): Parsed<U> requires Failed? { Failed(pos) }
    function Extract(): (T, nat) requires Parsed? { (value, pos) }

    /** The value, or null when the read threw. */
    function ToOption(): Option<T>
    {
      if Parsed? then Some(value) else None
    }
  }

  /** `get(byte[n])`: the next n bytes. */
  function Take(s: seq<Byte>, pos: nat, n: nat): (r: Parsed<seq<Byte>>)
    ensures r.Parsed? <==> pos + n <= |s|
    ensures r.Parsed? ==> |r.value| == n && r.pos == pos + n
    ensures r.Failed? ==> r.pos == pos
  {
    if pos + n <= |s| then Parsed(s[pos..pos + n], pos + n) else Failed(pos)
  }

  /** A signed big-endian read of `width` bytes. */
  function TakeSigned(s: seq<Byte>, pos: nat, width: nat): Parsed<int>
  {
    var b :- Take(s, pos, width);
    Parsed(Signed(b.0), b.1)
  }

  function TakeLong(s: seq<Byte>, pos: nat): (r: Parsed<Int64>)
    ensures r.Parsed? <==> pos + 8 <= |s|
    ensures r.pos == if r.Parsed? then pos + 8 else pos
  {
    Pow256Values();
    var v :- TakeSigned(s, pos, 8);
    Parsed(v.0 as Int64, v.1)
  }

  function TakeInt(s: seq<Byte>, pos: nat): (r: Parsed<Int32>)
    ensures r.Parsed? <==> pos + 4 <= |s|
    ensures r.pos == if r.Parsed? then pos + 4 else pos
  {
    Pow256Values();
    var v :- TakeSigned(s, pos, 4);
    Parsed(v.0 as Int32, v.1)
  }

  function TakeShort(s: seq<Byte>, pos: nat): (r: Parsed<Int16>)
    ensures r.Parsed? <==> pos + 2 <= |s|
    ensures r.pos == if r.Parsed? then pos + 2 else pos
  {
    Pow256Values();
    var v :- TakeSigned(s, pos, 2);
    Parsed(v.0 as Int16, v.1)
  }

  /** `get()`: one byte, as Java's signed byte. */
  function TakeByte(s: seq<Byte>, pos: nat): (r: Parsed<int>)
    ensures r.Parsed? <==> pos + 1 <= |s|
    ensures r.pos == if r.Parsed? then pos + 1 else pos
    ensures r.Parsed? ==> -128 <= r.value < 128
  {
    Pow256Values();
    TakeSigned(s, pos, 1)
  }

  /** Reading n bytes where encoded bytes `e` stand at `pos` gives back `e`. */
  lemma TakeOf(e: seq<Byte>, s: seq<Byte>, pos: nat)
    requires At(e, s, pos)
    ensures Take(s, pos, |e|) == Parsed(e, pos + |e|)
  {
    assert s[pos..pos + |e|] == e;
  }

  lemma TakeSignedOf(v: int, width: nat, s: seq<Byte>, pos: nat)
    requires At(BigEndian(v, width), s, pos)
    requires -(Pow256(width) as int) <= 2 * v < Pow256(width)
    ensures TakeSigned(s, pos, width) == Parsed(v, pos + width)
  {
    TakeOf(BigEndian(v, width), s, pos);
    SignedBigEndian(v, width);
  }

  lemma TakeLongOf(v: Int64, s: seq<Byte>, pos: nat)
    requires At(LongBytes(v), s, pos)
    ensures TakeLong(s, pos) == Parsed(v, pos + 8)
  {
    Pow256Values();
    TakeSignedOf(v, 8, s, pos);
  }

  lemma TakeIntOf(v: Int32, s: seq<Byte>, pos: nat)
    requires At(IntBytes(v), s, pos)
    ensures TakeInt(s, pos) == Parsed(v, pos + 4)
  {
    Pow256Values();
    TakeSignedOf(v, 4, s, pos);
  }

  lemma TakeShortOf(v: Int16, s: seq<Byte>, pos: nat)
    requires At(ShortBytes(v), s, pos)
    ensures TakeShort(s, pos) == Parsed(v, pos + 2)
  {
    Pow256Values();
    TakeSignedOf(v, 2, s, pos);
  }

  /** `getShort() & 0xffff` where `putShort((short) v)` wrote an unsigned 16-bit v reads back v. */
  lemma TakeUnsignedShortOf(v: UInt16, s: seq<Byte>, pos: nat)
    requires At(ShortBytes(v), s, pos)
    ensures TakeShort(s, pos).Parsed? && TakeShort(s, pos).pos == pos + 2
    ensures TakeShort(s, pos).value % 0x1_0000 == v
  {
    Pow256Values();
    TakeOf(ShortBytes(v), s, pos);
    SignedMaskIsUnsigned(ShortBytes(v));
    UnsignedRoundTrip(v, 2);
  }

  lemma TakeByteOf(v: int, s: seq<Byte>, pos: nat)
    requires -128 <= v < 128
    requires At(ByteBytes(v), s, pos)
    ensures TakeByte(s, pos) == Parsed(v, pos + 1)
  {
    Pow256Values();
    TakeSignedOf(v, 1, s, pos);
  }

  /** A list of `count` items read one after the other (a `for (i = 0; i < count; i++)` loop; a negative count reads nothing). */
  function ReadList<T>(s: seq<Byte>, pos: nat, count: int, acc: seq<T>, item: (seq<Byte>, nat) -> Parsed<T>): Parsed<seq<T>>
    decreases count
  {
    if count <= 0 then Parsed(acc, pos)
    else
      var x :- item(s, pos);
      ReadList(s, x.1, count - 1, acc + [x.0], item)
  }

  /** `item` reads back every element of `xs` wherever its encoding stands in `s`. */
  ghost predicate ReadsBack<T>(item: (seq<Byte>, nat) -> Parsed<T>, enc: T -> seq<Byte>, xs: seq<T>, s: seq<Byte>)
  {
    forall i, p: nat {:trigger item(s, p), xs[i]} ::
      0 <= i < |xs| && At(enc(xs[i]), s, p) ==> item(s, p) == Parsed(xs[i], p + |enc(xs[i])|)
  }

  lemma ReadListStep<T>(s: seq<Byte>, pos: nat, count: int, acc: seq<T>, item: (seq<Byte>, nat) -> Parsed<T>)
    requires count > 0 && item(s, pos).Parsed?
    ensures ReadList(s, pos, count, acc, item)
         == ReadList(s, item(s, pos).pos, count - 1, acc + [item(s, pos).value], item)
  {
  }

  lemma ReadsBackTail<T>(item: (seq<Byte>, nat) -> Parsed<T>, enc: T -> seq<Byte>, xs: seq<T>, s: seq<Byte>)
    requires xs != [] && ReadsBack(item, enc, xs, s)
    ensures ReadsBack(item, enc, xs[1..], s)
  {
    forall i, p: nat | 0 <= i < |xs[1..]| && At(enc(xs[1..][i]), s, p)
      ensures item(s, p) == Parsed(xs[1..][i], p + |enc(xs[1..][i])|)
    {
      assert xs[1..][i] == xs[i + 1];
    }
  }

  /** Reading |xs| items where Flatten(xs, enc) stands gives back xs and stops right after it, at `end`. */
  lemma {:induction false} ReadListOf<T>(xs: seq<T>, enc: T -> seq<Byte>, item: (seq<Byte>, nat) -> Parsed<T>,
                                         s: seq<Byte>, pos: nat, end: nat, acc: seq<T>)
    requires ReadsBack(item, enc, xs, s)
    requires At(Flatten(xs, enc), s, pos) && end == pos + |Flatten(xs, enc)|
    ensures ReadList(s, pos, |xs|, acc, item) == Parsed(acc + xs, end)
    decreases |xs|
  {
    if xs == [] {
      assert acc + xs == acc;
    } else {
      var x, rest := xs[0], xs[1..];
      FlattenCons(xs, enc);
      var next := pos + |enc(x)|;
      AtSplit(enc(x), Flatten(rest, enc), s, pos, next);
      assert item(s, pos) == Parsed(x, next);
      ReadListStep(s, pos, |xs|, acc, item);
      ReadsBackTail(item, enc, xs, s);
      ReadListOf(rest, enc, item, s, next, end, acc + [x]);
      assert acc + [x] + rest == acc + xs;
    }
  }

  /** `item` never moves a position that is within `s` past the end of `s`. */
  ghost predicate StaysWithin<T>(item: (seq<Byte>, nat) -> Parsed<T>, s: seq<Byte>)
  {
    forall p: nat :: p <= |s| ==> item(s, p).pos <= |s|
  }

  /** A ByteBuffer wrapped around a freshly allocated array, written through `pos`. */
  class ByteWriter {
    const data: array<Byte>
    var pos: nat

    ghost predicate Valid()
      reads this
    {
      pos <= data.Length
    }

    /** What has been put so far. */
    ghost function Written(): seq<Byte>
      reads this, data
      requires Valid()
    {
      data[..pos]
    }

    constructor (capacity: nat)
      ensures Valid() && fresh(data) && data.Length == capacity && pos == 0
    {
      data := new Byte[capacity](_ => 0);
      pos := 0;
    }

    /** `put(byte[])`; the caller shows there is room, so no BufferOverflowException. */
    method Put(bytes: seq<Byte>)
      requires Valid() && pos + |bytes| <= data.Length
      modifies this`pos, data
      ensures Valid() && pos == old(pos) + |bytes|
      ensures Written() == old(Written()) + bytes
    {
      forall i | 0 <= i < |bytes| {
        data[pos + i] := bytes[i];
      }
      pos := pos + |bytes|;
    }

    /** A for-each loop that puts every element's encoding in list order. */
    method PutAll<T>(xs: seq<T>, enc: T -> seq<Byte>)
      requires Valid() && pos + |Flatten(xs, enc)| <= data.Length
      modifies this`pos, data
      ensures Valid() && pos == old(pos) + |Flatten(xs, enc)|
      ensures Written() == old(Written()) + Flatten(xs, enc)
    {
      ghost var start := Written();
      var i := 0;
      while i < |xs|
        invariant i <= |xs| && Valid()
        invariant pos == old(pos) + |Flatten(xs[..i], enc)|
        invariant Written() == start + Flatten(xs[..i], enc)
      {
        FlattenPrefixStep(xs, enc, i);
        ghost var before := Written();
        Put(enc(xs[i]));
        FlattenAppend(start, xs, enc, i, before, Written());
        i := i + 1;
      }
      assert xs[..i] == xs;
    }

    method PutLong(v: int)
      requires Valid() && pos + 8 <= data.Length
      modifies this`pos, data
      ensures Valid() && pos == old(pos) + 8
      ensures Written() == old(Written()) + LongBytes(v)
    {
      Put(LongBytes(v));
    }

    method PutInt(v: int)
      requires Valid() && pos + 4 <= data.Length
      modifies this`pos, data
      ensures Valid() && pos == old(pos) + 4
      ensures Written() == old(Written()) + IntBytes(v)
    {
      Put(IntBytes(v));
    }

    /** `putShort((short) v)`: the cast keeps the low 16 bits. */
    method PutShort(v: int)
      requires Valid() && pos + 2 <= data.Length
      modifies this`pos, data
      ensures Valid() && pos == old(pos) + 2
      ensures Written() == old(Written()) + ShortBytes(v)
    {
      Put(ShortBytes(v));
    }

    /** `put((byte) v)`: the cast keeps the low 8 bits. */
    method PutByte(v: int)
      requires Valid() && pos + 1 <= data.Length
      modifies this`pos, data
      ensures Valid() && pos == old(pos) + 1
      ensures Written() == old(Written()) + ByteBytes(v)
    {
      Put(ByteBytes(v));
    }
  }

  /** A ByteBuffer wrapped around received bytes, read through `pos`. */
  class ByteReader {
    const data: seq<Byte>
    var pos: nat

    ghost predicate Valid()
      reads this
    {
      pos <= |data|
    }

    constructor (bytes: seq<Byte>)
      ensures Valid() && data == bytes && pos == 0
    {
      data := bytes;
      pos := 0;
    }

    method Get(n: nat) returns (r: Parsed<seq<Byte>>)
      requires Valid()
      modifies this`pos
      ensures Valid() && r == Take(data, old(pos), n) && pos == r.pos
    {
      if pos + n <= |data| {
        r := Parsed(data[pos..pos + n], pos + n);
      } else {
        r := Failed(pos);
      }
      pos := r.pos;
    }

    /** A counted list read item by item; an item that throws abandons the list where that item's reads stopped. */
    method GetList<T>(count: int, item: (seq<Byte>, nat) -> Parsed<T>) returns (r: Parsed<seq<T>>)
      requires Valid() && StaysWithin(item, data)
      modifies this`pos
      ensures Valid() && r == ReadList(data, old(pos), count, [], item) && pos == r.pos
    {
      var list: seq<T> := [];
      var i := 0;
      while i < count
        invariant Valid() && 0 <= i
        invariant ReadList(data, old(pos), count, [], item) == ReadList(data, pos, count - i, list, item)
        decreases count - i
      {
        var x := item(data, pos);
        pos := x.pos;
        if x.Failed? {
          return Failed(x.pos);
        }
        list := list + [x.value];
        i := i + 1;
      }
      r := Parsed(list, pos);
    }

    method GetLong() returns (r: Parsed<Int64>)
      requires Valid()
      modifies this`pos
      ensures Valid() && r == TakeLong(data, old(pos)) && pos == r.pos
    {
      Pow256Values();
      var b := Get(8);
      if b.Failed? {
        return Failed(b.pos);
      }
      r := Parsed(Signed(b.value) as Int64, b.pos);
    }

    method GetInt() returns (r: Parsed<Int32>)
      requires Valid()
      modifies this`pos
      ensures Valid() && r == TakeInt(data, old(pos)) && pos == r.pos
    {
      Pow256Values();
      var b := Get(4);
      if b.Failed? {
        return Failed(b.pos);
      }
      r := Parsed(Signed(b.value) as Int32, b.pos);
    }

    method GetShort() returns (r: Parsed<Int16>)
      requires Valid()
      modifies this`pos
      ensures Valid() && r == TakeShort(data, old(pos)) && pos == r.pos
    {
      Pow256Values();
      var b := Get(2);
      if b.Failed? {
        return Failed(b.pos);
      }
      r := Parsed(Signed(b.value) as Int16, b.pos);
    }

    method GetByte() returns (r: Parsed<int>)
      requires Valid()
      modifies this`pos
      ensures Valid() && r == TakeByte(data, old(pos)) && pos == r.pos
    {
      Pow256Values();
      var b := Get(1);
      if b.Failed? {
        return Failed(b.pos);
      }
      r := Parsed(Signed(b.value), b.pos);
    }
  }
}

=== FILE: bytes.dfy ===
/**
 * Field widths of the wire format (the constants of the verifier's FieldByteSize class,
 * fixed here to the widths the serialisers write).
 */
module FieldByteSize {
  const Timestamp: nat := 8
  const MessageType: nat := 2
  const Identifier: nat := 32
  const Signature: nat := 64
  const MessageLength: nat := 4
  const Port: nat := 4
  const BooleanField: nat := 1
  const BlockHeight: nat := 8
  const NodeListLength: nat := 4
  const HashListLength: nat := 1
  const TransactionPoolLength: nat := 4
  const UnfrozenBlockPoolLength: nat := 2
  const Hash: nat := 32
  const IpAddress: nat := 4
}

/**
 * Bytes, Java's fixed-width integers, and the big-endian two's-complement
 * encoding that java.nio.ByteBuffer uses for putLong/putInt/putShort/put and
 * getLong/getInt/getShort/get.
 */
module Bytes {

  newtype Byte = x: int | 0 <= x < 256

  /** Java `long`, `int`, `short`, and an unsigned 16-bit value. */
  type Int64 = x: int | -0x8000_0000_0000_0000 <= x < 0x8000_0000_0000_0000
  type Int32 = x: int | -0x8000_0000 <= x < 0x8000_0000
  type Int16 = x: int | -0x8000 <= x < 0x8000
  type UInt16 = x: int | 0 <= x < 0x1_0000

  function Pow256(n: nat): (r: nat)
    ensures r > 0
  {
    if n == 0 then 1 else 256 * Pow256(n - 1)
  }

  lemma Pow256Values()
    ensures Pow256(1) == 0x100 && Pow256(2) == 0x1_0000
    ensures Pow256(4) == 0x1_0000_0000
    ensures Pow256(8) == 0x1_0000_0000_0000_0000
  {
    assert Pow256(3) == 0x100_0000;
    assert Pow256(5) == 0x100_0000_0000;
    assert Pow256(6) == 0x1_0000_0000_0000;
    assert Pow256(7) == 0x100_0000_0000_0000;
  }

  /**
   * The `width` low-order bytes of `v` in two's complement, most significant first:
   * what a Java cast to a `width`-byte integer followed by a big-endian put writes.
   */
  function BigEndian(v: int, width: nat): (r: seq<Byte>)
    ensures |r| == width
    decreases width
  {
    if width == 0 then [] else BigEndian(v / 256, width - 1) + [(v % 256) as Byte]
  }

  /** The value of big-endian bytes read as an unsigned number. */
  function Unsigned(s: seq<Byte>): (r: nat)
    ensures r < Pow256(|s|)
  {
    if s == [] then 0 else Unsigned(s[..|s| - 1]) * 256 + s[|s| - 1] as int
  }

  /** The value of big-endian bytes read as a two's-complement number (getLong, getInt, getShort, get). */
  function Signed(s: seq<Byte>): (r: int)
    ensures -(Pow256(|s|) as int) <= 2 * r < Pow256(|s|)
  {
    var u := Unsigned(s);
    if 2 * u >= Pow256(|s|) then u - Pow256(|s|) else u
  }

  function LongBytes(v: int): (r: seq<Byte>) ensures |r| == 8 { BigEndian(v, 8) }
  function IntBytes(v: int): (r: seq<Byte>) ensures |r| == 4 { BigEndian(v, 4) }
  function ShortBytes(v: int): (r: seq<Byte>) ensures |r| == 2 { BigEndian(v, 2) }
  function ByteBytes(v: int): (r: seq<Byte>) ensures |r| == 1 { BigEndian(v, 1) }

  /** Euclidean remainder is unique: x = d * a + b with 0 <= b < d fixes x % d and x / d. */
  lemma ModUnique(x: int, d: int, a: int, b: int)
    requires d > 0 && x == d * a + b && 0 <= b < d
    ensures x % d == b && x / d == a
  {
    var k := x / d - a;
    assert d * k == b - x % d;
  }

  /** Division by 256 with remainder pins down the value modulo 256 * m. */
  lemma ModStep(v: int, m: nat)
    requires m > 0
    ensures v % (256 * m) == ((v / 256) % m) * 256 + v % 256
  {
    var q, r := v / 256, v % 256;
    var a, b := q / m, q % m;
    assert v == 256 * q + r;
    assert q == m * a + b;
    assert v == (256 * m) * a + (256 * b + r);
    ModUnique(v, 256 * m, a, 256 * b + r);
  }

  /** Reading back what BigEndian wrote gives the value modulo 256^width. */
  lemma {:induction false} UnsignedBigEndian(v: int, width: nat)
    ensures Unsigned(BigEndian(v, width)) == v % Pow256(width)
    decreases width
  {
    if width > 0 {
      var s := BigEndian(v, width);
      assert s[..width - 1] == BigEndian(v / 256, width - 1);
      UnsignedBigEndian(v / 256, width - 1);
      ModStep(v, Pow256(width - 1));
    }
  }

  /** A value that fits in `width` bytes of two's complement survives a put and a get. */
  lemma SignedBigEndian(v: int, width: nat)
    requires -(Pow256(width) as int) <= 2 * v < Pow256(width)
    ensures Signed(BigEndian(v, width)) == v
  {
    UnsignedBigEndian(v, width);
    var p := Pow256(width);
    if v >= 0 {
      ModUnique(v, p, 0, v);
    } else {
      ModUnique(v, p, -1, v + p);
    }
  }

  /** A non-negative value below 256^width survives a put and an unsigned get. */
  lemma UnsignedRoundTrip(v: nat, width: nat)
    requires v < Pow256(width)
    ensures Unsigned(BigEndian(v, width)) == v
  {
    UnsignedBigEndian(v, width);
  }

  /** `getShort() & 0xffff`: the unsigned reading of two bytes is the signed one taken mod 2^16. */
  lemma SignedMaskIsUnsigned(s: seq<Byte>)
    requires |s| == 2
    ensures Signed(s) % 0x1_0000 == Unsigned(s)
  {
    Pow256Values();
  }

  /** Concatenation of the encodings of a list, in list order. */
  function Flatten<T>(xs: seq<T>, enc: T -> seq<Byte>): seq<Byte>
  {
    if xs == [] then [] else Flatten(xs[..|xs| - 1], enc) + enc(xs[|xs| - 1])
  }

  /** Sum of the encoded sizes of a list, accumulated as the getByteSize loops do. */
  function TotalSize<T>(xs: seq<T>, enc: T -> seq<Byte>): nat
  {
    if xs == [] then 0 else TotalSize(xs[..|xs| - 1], enc) + |enc(xs[|xs| - 1])|
  }

  lemma {:induction false} FlattenSize<T>(xs: seq<T>, enc: T -> seq<Byte>)
    ensures |Flatten(xs, enc)| == TotalSize(xs, enc)
  {
    if xs != [] {
      FlattenSize(xs[..|xs| - 1], enc);
    }
  }

  /** When every element encodes to `k` bytes, a list of n elements encodes to n * k bytes. */
  lemma {:induction false} FlattenFixedSize<T>(xs: seq<T>, enc: T -> seq<Byte>, k: nat)
    requires forall i :: 0 <= i < |xs| ==> |enc(xs[i])| == k
    ensures |Flatten(xs, enc)| == |xs| * k
  {
    if xs != [] {
      var n := |xs| - 1;
      FlattenFixedSize(xs[..n], enc, k);
      assert |Flatten(xs, enc)| == n * k + k;
      assert n * k + k == (n + 1) * k;
    }
  }

  /** Flatten peeled from the front, the order in which a decoder reads. */
  lemma {:induction false} FlattenCons<T>(xs: seq<T>, enc: T -> seq<Byte>)
    requires xs != []
    ensures Flatten(xs, enc) == enc(xs[0]) + Flatten(xs[1..], enc)
    decreases |xs|
  {
    if |xs| > 1 {
      var init := xs[..|xs| - 1];
      FlattenCons(init, enc);
      assert init[1..] == xs[1..][..|xs[1..]| - 1];
      assert init[0] == xs[0];
    } else {
      assert xs[..0] == [] && xs[1..] == [];
    }
  }

  lemma FlattenPrefixNext<T>(xs: seq<T>, enc: T -> seq<Byte>, i: nat)
    requires i < |xs|
    ensures Flatten(xs[..i + 1], enc) == Flatten(xs[..i], enc) + enc(xs[i])
  {
    assert xs[..i + 1][..i] == xs[..i];
  }

  /** The loop step of writing a list: appending the next element's encoding extends the written prefix by one element. */
  lemma FlattenAppend<T>(start: seq<Byte>, xs: seq<T>, enc: T -> seq<Byte>, i: nat, before: seq<Byte>, after: seq<Byte>)
    requires i < |xs| && before == start + Flatten(xs[..i], enc) && after == before + enc(xs[i])
    ensures after == start + Flatten(xs[..i + 1], enc)
  {
    FlattenPrefixNext(xs, enc, i);
  }

  /** One more element of a list: its prefix grows by that element's encoding, which still fits in the whole. */
  lemma FlattenPrefixStep<T>(xs: seq<T>, enc: T -> seq<Byte>, i: nat)
    requires i < |xs|
    ensures Flatten(xs[..i + 1], enc) == Flatten(xs[..i], enc) + enc(xs[i])
    ensures |Flatten(xs[..i], enc)| + |enc(xs[i])| <= |Flatten(xs, enc)|
  {
    FlattenPrefixNext(xs, enc, i);
    FlattenSize(xs[..i + 1], enc);
    FlattenSize(xs, enc);
    TotalSizePrefix(xs, enc, i + 1);
  }

  /** A prefix of a list sums to no more than the whole list. */
  lemma {:induction false} TotalSizePrefix<T>(xs: seq<T>, enc: T -> seq<Byte>, i: nat)
    requires i <= |xs|
    ensures TotalSize(xs[..i], enc) <= TotalSize(xs, enc)
    decreases |xs|
  {
    if i < |xs| {
      assert xs[..|xs| - 1][..i] == xs[..i];
      TotalSizePrefix(xs[..|xs| - 1], enc, i);
    } else {
      assert xs[..i] == xs;
    }
  }

  /** Appending two pieces one after the other appends their concatenation. */
  lemma AppendTwice<T>(a: seq<T>, b: seq<T>, c: seq<T>)
    ensures a + b + c == a + (b + c)
  {
  }

  /** The encoded bytes `e` stand in `s` starting at `pos`. */
  predicate At(e: seq<Byte>, s: seq<Byte>, pos: nat)
  {
    pos + |e| <= |s| && forall i :: 0 <= i < |e| ==> s[pos + i] == e[i]
  }

  /** Where a + b stands, a stands at the same place and b right after it, at `mid`. */
  lemma AtSplit(a: seq<Byte>, b: seq<Byte>, s: seq<Byte>, pos: nat, mid: nat)
    requires At(a + b, s, pos) && mid == pos + |a|
    ensures At(a, s, pos) && At(b, s, mid)
  {
    forall i | 0 <= i < |a| ensures s[pos + i] == a[i] {
      assert (a + b)[i] == a[i];
    }
    forall i | 0 <= i < |b| ensures s[mid + i] == b[i] {
      assert (a + b)[|a| + i] == b[i];
    }
  }

  /** Bytes that stand in `s` still stand in any prefix of `s` long enough to hold them. */
  lemma AtPrefix(e: seq<Byte>, s: seq<Byte>, pos: nat, k: nat)
    requires At(e, s, pos) && pos + |e| <= k <= |s|
    ensures At(e, s[..k], pos)
  {
  }

  /** A sequence stands in itself at position 0. */
  lemma AtWhole(s: seq<Byte>)
    ensures At(s, s, 0)
  {
  }

  /** What follows `pos` is the bytes standing there, then the rest. */
  lemma AtRest(e: seq<Byte>, s: seq<Byte>, pos: nat)
    requires At(e, s, pos)
    ensures s[pos..] == e + s[pos + |e|..]
  {
  }
}

=== FILE: external.dfy ===
/**
 * The signing capability the envelope consumes. Keys, signatures and the
 * signature scheme are not part of this model: signing, verifying and deriving
 * an identifier from a private seed are fields of a `Signer`, and the one
 * property the envelope relies on is the predicate `Sound`.
 */
module Crypto {
  import opened Bytes
  import FieldByteSize

  /** A node's public identity. */
  type Identifier = s: seq<Byte> | |s| == FieldByteSize.Identifier witness seq(32, _ => 0)

  type Signature = s: seq<Byte> | |s| == FieldByteSize.Signature witness seq(64, _ => 0)

  /** A private signing seed. */
  type Seed = seq<Byte>

  datatype Signer = Signer(
    identifierForSeed: Seed -> Identifier,
    sign: (seq<Byte>, Seed) -> Signature,
    verify: (Signature, seq<Byte>, Identifier) -> bool)

  /** A signature made with a seed verifies, over the same bytes, against that seed's identifier. */
  ghost predicate Sound(c: Signer)
  {
    forall m, seed :: c.verify(c.sign(m, seed), m, c.identifierForSeed(seed))
  }
}

/**
 * Entities of the verifier that this core carries but does not own: peer
 * records, transactions, blocks and balance lists, and the payload classes of
 * the other message types. Their own serialisers are not part of this model;
 * they are the fields of a `Serializers` value, and `RoundTrips` states the
 * round-trip each of them is expected to satisfy.
 */
module External {
  import opened Wrappers
  import opened Bytes
  import opened Buffers
  import opened Crypto
  import FieldByteSize

  type Hash = s: seq<Byte> | |s| == FieldByteSize.Hash witness seq(32, _ => 0)

  type IpAddress = s: seq<Byte> | |s| == FieldByteSize.IpAddress witness seq(4, _ => 0)

  /** A peer record as the mesh lists it. */
  datatype Node = Node(identifier: Identifier, ipAddress: IpAddress, port: Int32, fullNode: bool)

  type Transaction(==, !new)
  type BalanceList(==, !new)

  /** Everything of a block other than its height, hash and attached balance list. */
  type BlockBody(==, !new)

  /** The part of a block that Block.getBytes writes. */
  datatype BlockHeader = BlockHeader(height: Int64, hash: Hash, body: BlockBody)

  /** A block, with the balance list that may be attached to it (null until set). */
  datatype Block = Block(header: BlockHeader, balanceList: Option<BalanceList>)

  /** The payload class each message type with a decoder is read as. */
  datatype PayloadClass =
    | BootstrapRequest | NodeJoinMessage | TransactionPayload | TransactionResponse
    | PreviousHashResponse | BlockPayload | BlockRequest | BlockResponse
    | TransactionPoolResponse | MeshResponse | StatusResponse | BlockVote
    | NewVerifierVote | MissingBlockVoteRequest | PingResponse | UpdateResponse
    | UnfrozenBlockPoolPurgeResponse | UnfrozenBlockPoolResponse
    | BooleanMessageResponse | ErrorMessage

  /** The content object of a message whose class is outside this model. */
  type Payload(==, !new)

  /** What an external `fromByteBuffer` does with the rest of the buffer: a value and the bytes it used, or an exception after using some bytes. */
  datatype Outcome<+T> = Done(value: T, used: nat) | Threw(used: nat)

  datatype Serializers = Serializers(
    transactionBytes: Transaction -> seq<Byte>,
    readTransaction: seq<Byte> -> Outcome<Transaction>,
    blockBytes: BlockHeader -> seq<Byte>,
    readBlock: seq<Byte> -> Outcome<BlockHeader>,
    balanceListBytes: BalanceList -> seq<Byte>,
    readBalanceList: seq<Byte> -> Outcome<BalanceList>,
    payloadBytes: (PayloadClass, Payload) -> seq<Byte>,
    readPayload: (PayloadClass, seq<Byte>) -> Outcome<Payload>)

  /** Each external decoder, given a buffer that starts with an encoding, returns that value and uses exactly its bytes. */
  ghost predicate RoundTrips(f: Serializers)
  {
    && (forall t, rest :: f.readTransaction(f.transactionBytes(t) + rest) == Done(t, |f.transactionBytes(t)|))
    && (forall h, rest :: f.readBlock(f.blockBytes(h) + rest) == Done(h, |f.blockBytes(h)|))
    && (forall l, rest :: f.readBalanceList(f.balanceListBytes(l) + rest) == Done(l, |f.balanceListBytes(l)|))
    && (forall c, p, rest :: f.readPayload(c, f.payloadBytes(c, p) + rest) == Done(p, |f.payloadBytes(c, p)|))
  }

  /** A buffer's position never passes its limit. */
  function Advance(pos: nat, used: nat, limit: nat): (r: nat)
    requires pos <= limit
    ensures pos <= r <= limit
    ensures pos + used <= limit ==> r == pos + used
  {
    if pos + used <= limit then pos + used else limit
  }

  /** An external decoder run on s[pos..], seen as a read at `pos`. */
  function ReadWith<T>(decode: seq<Byte> -> Outcome<T>, s: seq<Byte>, pos: nat): (r: Parsed<T>)
    ensures pos <= |s| ==> r.pos <= |s|
  {
    if pos > |s| then Failed(pos)
    else match decode(s[pos..])
      case Done(v, used) => Parsed(v, Advance(pos, used, |s|))
      case Threw(used) => Failed(Advance(pos, used, |s|))
  }

  /** Block.getBytes: the header only; an attached balance list is not written. */
  function BlockEncoder(f: Serializers): Block -> seq<Byte>
  {
    (b: Block) => f.blockBytes(b.header)
  }

  /** What a decoded block is: the header read back, with no balance list attached. */
  function Unattached(b: Block): Block
  {
    Block(b.header, None)
  }
}

=== FILE: fetch.dfy ===
/**
 * The decisions around sending a message: which peers a broadcast goes to,
 * which peer a one-off fetch picks, whether a fetch to an address goes ahead,
 * how many connection attempts it makes, what its callback receives, and the
 * bounded loop that reads a response. Sockets, threads, sleeps and the message
 * queue are not part of this model; what they produce is a parameter.
 */
module Fetching {
  import opened Wrappers
  import opened Bytes
  import opened Crypto
  import opened External
  import opened Messages

  /** The broadcast filter: the active nodes other than this one, in mesh order. */
  function BroadcastTargets(mesh: seq<Node>, isActive: Node -> bool, self: Identifier): seq<Node>
  {
    if mesh == [] then []
    else
      var node := mesh[|mesh| - 1];
      BroadcastTargets(mesh[..|mesh| - 1], isActive, self) + (if isActive(node) && node.identifier != self then [node] else [])
  }

  /** A node is a broadcast target exactly when it is in the mesh, active, and not this node. */
  lemma {:induction false} BroadcastTargetsExactly(mesh: seq<Node>, isActive: Node -> bool, self: Identifier)
    ensures forall n :: n in BroadcastTargets(mesh, isActive, self) <==> n in mesh && isActive(n) && n.identifier != self
    ensures |BroadcastTargets(mesh, isActive, self)| <= |mesh|
  {
    if mesh != [] {
      var init := mesh[..|mesh| - 1];
      BroadcastTargetsExactly(init, isActive, self);
      assert mesh == init + [mesh[|mesh| - 1]];
    }
  }

  /** broadcast: one fetch, with no callback, to each target, in mesh order. */
  method Broadcast(mesh: seq<Node>, isActive: Node -> bool, self: Identifier) returns (fetched: seq<Node>)
    ensures fetched == BroadcastTargets(mesh, isActive, self)
  {
    fetched := [];
    for i := 0 to |mesh|
      invariant fetched == BroadcastTargets(mesh[..i], isActive, self)
    {
      assert mesh[..i + 1][..i] == mesh[..i];
      var node := mesh[i];
      if isActive(node) && node.identifier != self {
        fetched := fetched + [node];
      }
    }
    assert mesh[..|mesh|] == mesh;
  }

  /**
   * The peer fetch(message, callback) sends to: nodes are taken out of a copy
   * of the mesh at random until one is not this node.
   */
  method ChoosePeer(mesh: seq<Node>, self: Identifier) returns (node: Option<Node>)
    ensures node.Some? ==> node.value in mesh && node.value.identifier != self
    ensures node.None? <==> forall n :: n in mesh ==> n.identifier == self
  {
    var remaining := mesh;
    node := None;
    while node.None? && remaining != []
      invariant forall n :: n in remaining ==> n in mesh
      invariant node.Some? ==> node.value in mesh && node.value.identifier != self
      invariant node.None? ==> forall n :: n in mesh && n.identifier != self ==> n in remaining
      decreases |remaining|
    {
      var k :| 0 <= k < |remaining|;
      var testNode := remaining[k];
      ghost var before := remaining;
      remaining := remaining[..k] + remaining[k + 1..];
      if testNode.identifier != self {
        node := Some(testNode);
      } else {
        forall n | n in before && n != testNode
          ensures n in remaining
        {
          var j :| 0 <= j < |before| && before[j] == n;
          if j < k {
            assert remaining[j] == n;
          } else {
            assert remaining[j - 1] == n;
          }
        }
      }
    }
  }

  /** fetch(host, port, ...) goes ahead unless the host is this node's own address. */
  function FetchGoesAhead(hostIdentifier: Option<Identifier>, self: Identifier): (r: bool)
    ensures r <==> hostIdentifier != Some(self)
  {
    !(hostIdentifier.Some? && hostIdentifier.value == self)
  }

  /** The connection attempts: at most three, stopping at the first that connects. */
  method Connect(connects: nat -> bool) returns (connected: bool, attempts: nat)
    ensures 1 <= attempts <= 3
    ensures connected <==> connects(attempts - 1)
    ensures forall i :: 0 <= i < attempts - 1 ==> !connects(i)
    ensures !connected ==> attempts == 3
  {
    connected := false;
    attempts := 0;
    while attempts < 3 && !connected
      invariant attempts <= 3
      invariant connected ==> attempts >= 1 && connects(attempts - 1)
      invariant !connected ==> forall i :: 0 <= i < attempts ==> !connects(i)
      invariant connected ==> forall i :: 0 <= i < attempts - 1 ==> !connects(i)
    {
      connected := connects(attempts);
      attempts := attempts + 1;
    }
  }

  /** What the callback receives: the response when it is present and valid, null otherwise. */
  function CallbackArgument(response: Option<Message>): (r: Option<Message>)
    reads if response.Some? then {response.value} else {}
    ensures r.Some? <==> response.Some? && response.value.valid
    ensures r.Some? ==> r == response
  {
    if response.Some? && response.value.valid then response else None
  }

  /**
   * One fetch to an address, with the network's part as parameters: `connects(i)`
   * is whether attempt i connects and `exchange` what readFromStream returned.
   * The result says whether the fetch started, how many attempts it made, and
   * what was queued for the callback, if there is one.
   */
  method Fetch(hostIdentifier: Option<Identifier>, self: Identifier, connects: nat -> bool,
               exchange: Option<Message>, hasCallback: bool)
    returns (started: bool, attempts: nat, delivered: Option<Option<Message>>)
    ensures started <==> FetchGoesAhead(hostIdentifier, self)
    ensures !started ==> attempts == 0 && delivered.None?
    ensures started ==> 1 <= attempts <= 3
    ensures delivered.Some? <==> started && hasCallback
    ensures delivered.Some? && !connects(attempts - 1) ==> delivered.value.None?
    ensures delivered.Some? && connects(attempts - 1) ==> delivered.value == CallbackArgument(exchange)
  {
    started := FetchGoesAhead(hostIdentifier, self);
    attempts := 0;
    delivered := None;
    if started {
      var connected;
      connected, attempts := Connect(connects);
      var response := if connected then exchange else None;
      if hasCallback {
        delivered := Some(CallbackArgument(response));
      }
    }
  }

  /** The array size `new byte[messageLength - 4]` asks for, with Java's int wrap-around. */
  function RequestedSize(messageLength: Int32): int
  {
    var size := messageLength - 4;
    if size < -0x8000_0000 then size + 0x1_0000_0000 else size
  }

  /** What one read call adds to the bytes read: -1, the end of the stream, adds nothing. */
  function Counted(n: int): nat
  {
    if n < 0 then 0 else n
  }

  /** The bytes a sequence of read calls delivered. */
  function TotalRead(results: seq<int>): nat
  {
    if results == [] then 0 else TotalRead(results[..|results| - 1]) + Counted(results[|results| - 1])
  }

  /** How many of a sequence of read calls returned no bytes. */
  function EmptyReads(results: seq<int>): nat
  {
    if results == [] then 0 else EmptyReads(results[..|results| - 1]) + (if results[|results| - 1] == 0 then 1 else 0)
  }

  /**
   * `results` are what the read calls of getResponse's loop returned, in order:
   * each call was made only while the buffer was not full, no earlier call had
   * hit the end of the stream and fewer than 10 had returned nothing, and it
   * asked for what was still missing.
   */
  ghost predicate ReadScript(results: seq<int>, read: (nat, nat) -> int, length: nat)
  {
    results == [] ||
    var earlier := results[..|results| - 1];
    && ReadScript(earlier, read, length)
    && TotalRead(earlier) < length && EmptyReads(earlier) < 10
    && (earlier != [] ==> earlier[|earlier| - 1] >= 0)
    && results[|results| - 1] == read(|earlier|, length - TotalRead(earlier))
  }

  /**
   * The k-th call of a read script: the loop condition held before it, it asked
   * for what was still missing, and it hit the end of the stream only if it was
   * the last call.
   */
  lemma {:induction false} ReadScriptCall(results: seq<int>, read: (nat, nat) -> int, length: nat, k: nat)
    requires ReadScript(results, read, length) && k < |results|
    ensures TotalRead(results[..k]) < length && EmptyReads(results[..k]) < 10
    ensures results[k] == read(k, length - TotalRead(results[..k]))
    ensures k < |results| - 1 ==> results[k] >= 0
  {
    var earlier := results[..|results| - 1];
    if k == |earlier| {
      assert results[..k] == earlier;
    } else {
      ReadScriptCall(earlier, read, length, k);
      assert results[..k] == earlier[..k];
      assert results[k] == earlier[k];
    }
  }

  /** One more read call, made while the loop condition held, extends the script. */
  lemma ReadScriptExtend(results: seq<int>, read: (nat, nat) -> int, length: nat, n: int)
    requires ReadScript(results, read, length)
    requires TotalRead(results) < length && EmptyReads(results) < 10
    requires results != [] ==> results[|results| - 1] >= 0
    requires n == read(|results|, length - TotalRead(results))
    ensures ReadScript(results + [n], read, length)
    ensures TotalRead(results + [n]) == TotalRead(results) + Counted(n)
    ensures EmptyReads(results + [n]) == EmptyReads(results) + (if n == 0 then 1 else 0)
  {
    assert (results + [n])[..|results|] == results;
  }

  /** The stream alone decides a read script: two of the same length are the same calls. */
  lemma {:induction false} ReadScriptDetermined(a: seq<int>, b: seq<int>, read: (nat, nat) -> int, length: nat)
    requires ReadScript(a, read, length) && ReadScript(b, read, length) && |a| == |b|
    ensures a == b
  {
    if a != [] {
      var n := |a| - 1;
      ReadScriptDetermined(a[..n], b[..n], read, length);
      assert a == a[..n] + [a[n]] && b == b[..n] + [b[n]];
    }
  }

  /**
   * getResponse over a scripted stream: `messageLength` is the int read from the
   * first four bytes, and `read(k, want)` what the k-th read call returns when
   * asked for `want` bytes (-1 at the end of the stream). A negative size throws,
   * and the empty array is returned. `results` are the values the read calls
   * returned, in order.
   */
  method GetResponse(messageLength: Int32, read: (nat, nat) -> int)
    returns (length: nat, totalBytesRead: nat, readFailure: bool, waitCycles: nat, ghost results: seq<int>)
    requires forall k: nat, want: nat :: -1 <= read(k, want) <= want
    ensures length == if RequestedSize(messageLength) < 0 then 0 else RequestedSize(messageLength)
    ensures ReadScript(results, read, length)
    ensures totalBytesRead == TotalRead(results) && waitCycles == EmptyReads(results)
    ensures readFailure <==> results != [] && results[|results| - 1] < 0
    ensures totalBytesRead <= length && waitCycles <= 10
    ensures totalBytesRead == length || readFailure || waitCycles == 10
  {
    results := [];
    var size := RequestedSize(messageLength);
    if size < 0 {
      return 0, 0, false, 0, results;
    }
    length := size;
    totalBytesRead := 0;
    readFailure := false;
    waitCycles := 0;
    var calls := 0;
    while totalBytesRead < length && !readFailure && waitCycles < 10
      invariant calls == |results| && ReadScript(results, read, length)
      invariant totalBytesRead == TotalRead(results) && waitCycles == EmptyReads(results)
      invariant readFailure <==> results != [] && results[|results| - 1] < 0
      invariant totalBytesRead <= length && waitCycles <= 10
      decreases length - totalBytesRead, 10 - waitCycles, if readFailure then 0 else 1
    {
      var numberOfBytesRead := read(calls, length - totalBytesRead);
      ReadScriptExtend(results, read, length, numberOfBytesRead);
      calls := calls + 1;
      results := results + [numberOfBytesRead];
      if numberOfBytesRead < 0 {
        readFailure := true;
      } else {
        if numberOfBytesRead == 0 {
          waitCycles := waitCycles + 1;
        }
        totalBytesRead := totalBytesRead + numberOfBytesRead;
      }
    }
  }
}

=== FILE: messages.dfy ===
/**
 * The message envelope. A message is a timestamp, a message type, an optional
 * content object, the identifier of the node that created it and that node's
 * signature over everything before the signature. On the wire it is preceded
 * by its total length:
 *
 *   length (4) | timestamp (8) | type (2) | content | identifier (32) | signature (64)
 *
 * The signed region is everything between the length and the signature.
 */
module Messages {
  import opened Wrappers
  import opened Bytes
  import opened Buffers
  import opened Crypto
  import opened External
  import FieldByteSize
  import BootstrapResponses
  import NodeJoinResponses

  /** A message type, identified by the value it carries on the wire. */
  datatype MessageType = MessageType(value: UInt16)

  /** How processContent reads the content of a message type. */
  datatype Decoder =
    | BootstrapDecoder
    | NodeJoinDecoder
    | PayloadDecoder(cls: PayloadClass)

  /**
   * The processContent chain: the decoder of each message type that has one
   * (the type's value is the number in its name). MissingBlockVoteResponse24
   * is read as a block vote and ResetResponse501 as a boolean response.
   */
  function DecoderFor(t: MessageType): (r: Option<Decoder>)
    ensures t.value == 24 ==> r == Some(PayloadDecoder(BlockVote))
  {
    match t.value
    case 1 => Some(PayloadDecoder(BootstrapRequest))
    case 2 => Some(BootstrapDecoder)
    case 3 => Some(PayloadDecoder(NodeJoinMessage))
    case 4 => Some(NodeJoinDecoder)
    case 5 => Some(PayloadDecoder(TransactionPayload))
    case 6 => Some(PayloadDecoder(TransactionResponse))
    case 8 => Some(PayloadDecoder(PreviousHashResponse))
    case 9 => Some(PayloadDecoder(BlockPayload))
    case 11 => Some(PayloadDecoder(BlockRequest))
    case 12 => Some(PayloadDecoder(BlockResponse))
    case 14 => Some(PayloadDecoder(TransactionPoolResponse))
    case 16 => Some(PayloadDecoder(MeshResponse))
    case 18 => Some(PayloadDecoder(StatusResponse))
    case 19 => Some(PayloadDecoder(BlockVote))
    case 21 => Some(PayloadDecoder(NewVerifierVote))
    case 23 => Some(PayloadDecoder(MissingBlockVoteRequest))
    case 24 => Some(PayloadDecoder(BlockVote))
    case 201 => Some(PayloadDecoder(PingResponse))
    case 301 => Some(PayloadDecoder(UpdateResponse))
    case 405 => Some(PayloadDecoder(UnfrozenBlockPoolPurgeResponse))
    case 407 => Some(PayloadDecoder(UnfrozenBlockPoolResponse))
    case 501 => Some(PayloadDecoder(BooleanMessageResponse))
    case 65534 => Some(PayloadDecoder(ErrorMessage))
    case _ => None
  }

  /** The content object of a message; `NoContent` is null. */
  datatype Content =
    | NoContent
    | Bootstrap(bootstrap: BootstrapResponses.BootstrapResponse)
    | NodeJoin(nodeJoin: NodeJoinResponses.NodeJoinResponse)
    | Other(cls: PayloadClass, payload: Payload)

  /** content.getBytes(), or nothing for null content. */
  function ContentBytes(c: Content, f: Serializers): seq<Byte>
  {
    match c
    case NoContent => []
    case Bootstrap(r) => BootstrapResponses.Encode(r, f)
    case NodeJoin(r) => NodeJoinResponses.Encode(r, f)
    case Other(cls, p) => f.payloadBytes(cls, p)
  }

  /** Content whose getBytes does not throw: a node-join response needs every balance list. */
  predicate Writable(c: Content)
  {
    c.NodeJoin? ==> NodeJoinResponses.Attached(c.nodeJoin.blocks)
  }

  /** The serialised fields of a message (validity and the source address are not serialised). */
  datatype Envelope = Envelope(
    timestamp: Int64,
    messageType: MessageType,
    content: Content,
    sourceNodeIdentifier: Identifier,
    sourceNodeSignature: Signature)

  /** getBytesForSigning: timestamp, type, content, identifier. */
  function SignedRegion(timestamp: Int64, messageType: MessageType, content: Content, identifier: Identifier,
                        f: Serializers): seq<Byte>
  {
    LongBytes(timestamp) + ShortBytes(messageType.value) + ContentBytes(content, f) + identifier
  }

  /** The signed region of an envelope. */
  function Region(e: Envelope, f: Serializers): seq<Byte>
  {
    SignedRegion(e.timestamp, e.messageType, e.content, e.sourceNodeIdentifier, f)
  }

  /** The size getBytesForTransmission computes: the fixed fields and the content. */
  function TransmissionSize(e: Envelope, f: Serializers): nat
  {
    FieldByteSize.MessageLength + FieldByteSize.Timestamp + FieldByteSize.MessageType
      + FieldByteSize.Identifier + FieldByteSize.Signature + |ContentBytes(e.content, f)|
  }

  /** getBytesForTransmission: the size, the signed region, the signature. */
  function Transmission(e: Envelope, f: Serializers): seq<Byte>
  {
    IntBytes(TransmissionSize(e, f)) + Region(e, f) + e.sourceNodeSignature
  }

  /** The signed region is 42 bytes plus the content; the transmission adds the length field and the signature. */
  lemma TransmissionLength(e: Envelope, f: Serializers)
    ensures |Region(e, f)| == 42 + |ContentBytes(e.content, f)|
    ensures |Transmission(e, f)| == TransmissionSize(e, f) == 4 + |Region(e, f)| + 64
  {
  }

  /** After the length field of a transmission come the signed region and the signature. */
  lemma TransmissionTail(e: Envelope, f: Serializers)
    ensures Transmission(e, f)[4..] == Region(e, f) + e.sourceNodeSignature
    ensures |Transmission(e, f)| - 4 == 10 + |ContentBytes(e.content, f)| + 96
  {
    var lengthBytes := IntBytes(TransmissionSize(e, f));
    AppendTwice(lengthBytes, Region(e, f), e.sourceNodeSignature);
    TransmissionLength(e, f);
  }

  /** The signature of an envelope checks out against its own identifier. */
  predicate Verifies(e: Envelope, c: Signer, f: Serializers)
  {
    c.verify(e.sourceNodeSignature, Region(e, f), e.sourceNodeIdentifier)
  }

  /** The envelope carries the identifier of `seed` and that seed's signature over its signed region. */
  predicate SignedWith(e: Envelope, c: Signer, seed: Seed, f: Serializers)
  {
    && e.sourceNodeIdentifier == c.identifierForSeed(seed)
    && e.sourceNodeSignature == c.sign(Region(e, f), seed)
  }

  /** content.getByteSize(). */
  method ContentByteSize(c: Content, f: Serializers) returns (size: nat)
    requires Writable(c)
    ensures size == |ContentBytes(c, f)|
  {
    match c
    case NoContent =>
      size := 0;
    case Bootstrap(r) =>
      size := BootstrapResponses.GetByteSize(r, f);
      BootstrapResponses.SizeAgreement(r, f);
    case NodeJoin(r) =>
      size := NodeJoinResponses.GetByteSize(r, f);
      NodeJoinResponses.SizeAgreement(r, f);
    case Other(cls, p) =>
      size := |f.payloadBytes(cls, p)|;
  }

  /** buffer.put(content.getBytes()). */
  method PutContent(buffer: ByteWriter, c: Content, f: Serializers)
    requires Writable(c) && buffer.Valid() && buffer.pos + |ContentBytes(c, f)| <= buffer.data.Length
    modifies buffer`pos, buffer.data
    ensures buffer.Valid() && buffer.pos == old(buffer.pos) + |ContentBytes(c, f)|
    ensures buffer.Written() == old(buffer.Written()) + ContentBytes(c, f)
  {
    match c
    case NoContent =>
      assert old(buffer.Written()) + [] == old(buffer.Written());
    case Bootstrap(r) =>
      var bytes := BootstrapResponses.GetBytes(r, f);
      buffer.Put(bytes[..]);
    case NodeJoin(r) =>
      var bytes := NodeJoinResponses.GetBytes(r, f);
      buffer.Put(bytes[..]);
    case Other(cls, p) =>
      buffer.Put(f.payloadBytes(cls, p));
  }

  class Message {
    const timestamp: Int64
    const messageType: MessageType
    const content: Content
    var sourceNodeIdentifier: Identifier
    var sourceNodeSignature: Signature
    var valid: bool
    /** The address a received message came from; null for a message created here. */
    const sourceIpAddress: Option<seq<Byte>>

    ghost function Serialized(): Envelope
      reads this
    {
      Envelope(timestamp, messageType, content, sourceNodeIdentifier, sourceNodeSignature)
    }

    /**
     * A new message from this node (`seed` is its private seed, `now` the clock):
     * it carries the node's identifier and is signed by it, and it is valid.
     */
    constructor Local(now: Int64, messageType: MessageType, content: Content, c: Signer, seed: Seed, f: Serializers)
      requires Writable(content)
      ensures timestamp == now && this.messageType == messageType && this.content == content
      ensures SignedWith(Serialized(), c, seed, f)
      ensures valid && sourceIpAddress == None
    {
      timestamp := now;
      this.messageType := messageType;
      this.content := content;
      sourceNodeIdentifier := c.identifierForSeed(seed);
      sourceIpAddress := None;
      new;
      var bytes := GetBytesForSigning(f);
      sourceNodeSignature := c.sign(bytes[..], seed);
      valid := true;
    }

    /** A message from another node: valid exactly when its signature verifies. */
    constructor Remote(timestamp: Int64, messageType: MessageType, content: Content, identifier: Identifier,
                       signature: Signature, sourceIpAddress: seq<Byte>, c: Signer, f: Serializers)
      requires Writable(content)
      ensures Serialized() == Envelope(timestamp, messageType, content, identifier, signature)
      ensures valid == Verifies(Serialized(), c, f)
      ensures this.sourceIpAddress == Some(sourceIpAddress)
    {
      this.timestamp := timestamp;
      this.messageType := messageType;
      this.content := content;
      sourceNodeIdentifier := identifier;
      sourceNodeSignature := signature;
      this.sourceIpAddress := Some(sourceIpAddress);
      new;
      var bytes := GetBytesForSigning(f);
      valid := c.verify(signature, bytes[..], identifier);
    }

    /**
     * sign: re-key the message. The identifier changes first, so the new
     * signature covers the new identifier; validity is left as it was.
     */
    method Sign(seed: Seed, c: Signer, f: Serializers)
      requires Writable(content)
      modifies this`sourceNodeIdentifier, this`sourceNodeSignature
      ensures SignedWith(Serialized(), c, seed, f)
    {
      sourceNodeIdentifier := c.identifierForSeed(seed);
      var bytes := GetBytesForSigning(f);
      sourceNodeSignature := c.sign(bytes[..], seed);
    }

    method GetBytesForSigning(f: Serializers) returns (result: array<Byte>)
      requires Writable(content)
      ensures fresh(result) && result[..] == Region(Serialized(), f)
    {
      var sizeBytes := FieldByteSize.Timestamp + FieldByteSize.MessageType + FieldByteSize.Identifier;
      if !content.NoContent? {
        var contentSize := ContentByteSize(content, f);
        sizeBytes := sizeBytes + contentSize;
      }
      var e := Envelope(timestamp, messageType, content, sourceNodeIdentifier, sourceNodeSignature);
      TransmissionLength(e, f);
      assert sizeBytes == |Region(e, f)|;
      var buffer := new ByteWriter(sizeBytes);
      assert buffer.Written() == [];
      PutSignedRegion(buffer, e, f);
      assert buffer.data[..] == buffer.Written();
      result := buffer.data;
    }

    method GetBytesForTransmission(f: Serializers) returns (result: array<Byte>)
      requires Writable(content)
      ensures fresh(result) && result[..] == Transmission(Serialized(), f)
    {
      var sizeBytes := FieldByteSize.MessageLength + FieldByteSize.Timestamp + FieldByteSize.MessageType
                       + FieldByteSize.Identifier + FieldByteSize.Signature;
      if !content.NoContent? {
        var contentSize := ContentByteSize(content, f);
        sizeBytes := sizeBytes + contentSize;
      }
      var e := Envelope(timestamp, messageType, content, sourceNodeIdentifier, sourceNodeSignature);
      TransmissionLength(e, f);
      assert sizeBytes == TransmissionSize(e, f);
      var buffer := new ByteWriter(sizeBytes);
      assert buffer.Written() == [];
      buffer.PutInt(sizeBytes);
      assert buffer.Written() == IntBytes(sizeBytes);
      PutSignedRegion(buffer, e, f);
      buffer.Put(sourceNodeSignature);
      assert buffer.Written() == Transmission(e, f);
      assert buffer.data[..] == buffer.Written();
      result := buffer.data;
    }
  }

  /** The signed region through a buffer: putLong, putShort, the content, the identifier. */
  method PutSignedRegion(buffer: ByteWriter, e: Envelope, f: Serializers)
    requires Writable(e.content) && buffer.Valid() && buffer.pos + |Region(e, f)| <= buffer.data.Length
    modifies buffer`pos, buffer.data
    ensures buffer.Valid() && buffer.pos == old(buffer.pos) + |Region(e, f)|
    ensures buffer.Written() == old(buffer.Written()) + Region(e, f)
  {
    ghost var start := buffer.Written();
    ghost var timestampBytes, typeBytes := LongBytes(e.timestamp), ShortBytes(e.messageType.value);
    ghost var contentBytes := ContentBytes(e.content, f);
    buffer.PutLong(e.timestamp);
    buffer.PutShort(e.messageType.value);
    AppendTwice(start, timestampBytes, typeBytes);
    PutContent(buffer, e.content, f);
    AppendTwice(start, timestampBytes + typeBytes, contentBytes);
    buffer.Put(e.sourceNodeIdentifier);
    AppendTwice(start, timestampBytes + typeBytes + contentBytes, e.sourceNodeIdentifier);
  }

  /**
   * processContent at `pos`: the decoder of the type, if it has one. A type
   * without a decoder (or no type at all) reads nothing and gives null content.
   * The two responses of this model catch their own exceptions and give null
   * content where their reads stopped; any other payload decoder that throws
   * ends the whole read.
   */
  function ReadContent(t: Option<MessageType>, s: seq<Byte>, pos: nat, f: Serializers): Parsed<Content>
  {
    var decoder := if t.Some? then DecoderFor(t.value) else None;
    match decoder
    case None => Parsed(NoContent, pos)
    case Some(BootstrapDecoder) =>
      var d := BootstrapResponses.Decode(s, pos, f);
      Parsed(if d.Parsed? then Bootstrap(d.value) else NoContent, d.pos)
    case Some(NodeJoinDecoder) =>
      var d := NodeJoinResponses.Decode(s, pos, f);
      Parsed(if d.Parsed? then NodeJoin(d.value) else NoContent, d.pos)
    case Some(PayloadDecoder(cls)) =>
      var p :- ReadWith((b: seq<Byte>) => f.readPayload(cls, b), s, pos);
      Parsed(Other(cls, p.0), p.1)
  }

  /**
   * fromBytes, up to the constructor: the bytes after the length field. The type
   * value is read as an unsigned 16-bit number and looked up with `forValue`
   * (MessageType.forValue); an unknown value leaves the type null, which makes
   * the constructor throw.
   */
  function Parse(s: seq<Byte>, forValue: UInt16 -> Option<MessageType>, f: Serializers): Parsed<Envelope>
  {
    var timestamp :- TakeLong(s, 0);
    var typeValue :- TakeShort(s, timestamp.1);
    var t := forValue(typeValue.0 as int % 0x1_0000);
    var content :- ReadContent(t, s, typeValue.1, f);
    ParseTrailer(s, timestamp.0, t, content.0, content.1)
  }

  /**
   * The rest of fromBytes once the content is read: the identifier and the
   * signature, then the constructor, which throws for a null type.
   */
  function ParseTrailer(s: seq<Byte>, timestamp: Int64, t: Option<MessageType>, content: Content, pos: nat): (r: Parsed<Envelope>)
    ensures r.Parsed? <==> t.Some? && pos + 96 <= |s|
    ensures r.Parsed? ==> r == Parsed(Envelope(timestamp, t.value, content, s[pos..pos + 32], s[pos + 32..pos + 96]), pos + 96)
  {
    var identifier :- Take(s, pos, FieldByteSize.Identifier);
    var signature :- Take(s, identifier.1, FieldByteSize.Signature);
    if t.None? then Failed(signature.1)
    else Parsed(Envelope(timestamp, t.value, content, identifier.0, signature.0), signature.1)
  }

  /** processContent on a buffer. */
  method ProcessContent(t: Option<MessageType>, buffer: ByteReader, f: Serializers) returns (r: Parsed<Content>)
    requires buffer.Valid()
    modifies buffer`pos
    ensures buffer.Valid() && r == ReadContent(t, buffer.data, old(buffer.pos), f) && buffer.pos == r.pos
  {
    var decoder := if t.Some? then DecoderFor(t.value) else None;
    match decoder
    case None =>
      r := Parsed(NoContent, buffer.pos);
    case Some(BootstrapDecoder) =>
      var d := BootstrapResponses.FromByteBuffer(buffer, f);
      r := Parsed(if d.Some? then Bootstrap(d.value) else NoContent, buffer.pos);
    case Some(NodeJoinDecoder) =>
      var d := NodeJoinResponses.FromByteBuffer(buffer, f);
      r := Parsed(if d.Some? then NodeJoin(d.value) else NoContent, buffer.pos);
    case Some(PayloadDecoder(cls)) =>
      var p := ReadWith((b: seq<Byte>) => f.readPayload(cls, b), buffer.data, buffer.pos);
      buffer.pos := p.pos;
      r := if p.Parsed? then Parsed(Other(cls, p.value), p.pos) else Failed(p.pos);
  }

  /** Decoded content can be written again: a decoded node-join response has all its balance lists. */
  lemma ReadContentWritable(t: Option<MessageType>, s: seq<Byte>, pos: nat, f: Serializers)
    requires ReadContent(t, s, pos, f).Parsed?
    ensures Writable(ReadContent(t, s, pos, f).value)
  {
    if t.Some? && DecoderFor(t.value) == Some(NodeJoinDecoder) && NodeJoinResponses.Decode(s, pos, f).Parsed? {
      NodeJoinResponses.DecodedAttached(s, pos, f);
    }
  }

  /**
   * fromBytes: the message, valid when its signature verifies, or null when
   * any read throws or the type value is unknown.
   */
  method FromBytes(bytes: seq<Byte>, sourceIpAddress: seq<Byte>, forValue: UInt16 -> Option<MessageType>,
                   c: Signer, f: Serializers) returns (message: Option<Message>)
    ensures message.None? <==> Parse(bytes, forValue, f).Failed?
    ensures message.Some? ==> fresh(message.value)
    ensures message.Some? ==> message.value.Serialized() == Parse(bytes, forValue, f).value
    ensures message.Some? ==> message.value.valid == Verifies(message.value.Serialized(), c, f)
    ensures message.Some? ==> message.value.sourceIpAddress == Some(sourceIpAddress)
  {
    var buffer := new ByteReader(bytes);
    var timestamp := buffer.GetLong();
    if timestamp.Failed? { return None; }
    var typeValue := buffer.GetShort();
    if typeValue.Failed? { return None; }
    var messageType := forValue(typeValue.value as int % 0x1_0000);
    var content := ProcessContent(messageType, buffer, f);
    if content.Failed? { return None; }
    var identifier := buffer.Get(FieldByteSize.Identifier);
    if identifier.Failed? { return None; }
    var signature := buffer.Get(FieldByteSize.Signature);
    if signature.Failed? { return None; }
    if messageType.None? { return None; }
    ReadContentWritable(messageType, bytes, typeValue.pos, f);
    var m := new Message.Remote(timestamp.value, messageType.value, content.value, identifier.value,
                                signature.value, sourceIpAddress, c, f);
    message := Some(m);
  }

  /** readFromStream: an empty response is null, anything else goes to fromBytes. */
  method ReadFromStream(response: seq<Byte>, sourceIpAddress: seq<Byte>, forValue: UInt16 -> Option<MessageType>,
                        c: Signer, f: Serializers) returns (message: Option<Message>)
    ensures |response| == 0 ==> message.None?
    ensures |response| > 0 ==> (message.None? <==> Parse(response, forValue, f).Failed?)
    ensures message.Some? ==> fresh(message.value) && message.value.Serialized() == Parse(response, forValue, f).value
    ensures message.Some? ==> message.value.valid == Verifies(message.value.Serialized(), c, f)
  {
    if |response| == 0 {
      message := None;
    } else {
      message := FromBytes(response, sourceIpAddress, forValue, c, f);
    }
  }

  /** The content kind a message type's decoder produces: nothing for a type without a decoder. */
  predicate Carries(t: MessageType, c: Content)
  {
    match DecoderFor(t)
    case None => c.NoContent?
    case Some(BootstrapDecoder) => c.Bootstrap?
    case Some(NodeJoinDecoder) => c.NodeJoin?
    case Some(PayloadDecoder(cls)) => c.Other? && c.cls == cls
  }

  /** Content that survives its own count fields and can be written. */
  predicate ContentFits(c: Content)
  {
    match c
    case Bootstrap(r) => BootstrapResponses.CountsFit(r)
    case NodeJoin(r) => NodeJoinResponses.Attached(r.blocks) && |r.blocks| < 0x8000
    case _ => true
  }

  /** The content a receiver decodes: a bootstrap response arrives without balance lists. */
  function ReceivedContent(c: Content): Content
  {
    if c.Bootstrap? then Bootstrap(BootstrapResponses.Transmitted(c.bootstrap)) else c
  }

  function Received(e: Envelope): Envelope
  {
    e.(content := ReceivedContent(e.content))
  }

  /** The received content is written as the same bytes, so the signed region is unchanged. */
  lemma ReceivedRegion(e: Envelope, f: Serializers)
    ensures ContentBytes(ReceivedContent(e.content), f) == ContentBytes(e.content, f)
    ensures Region(Received(e), f) == Region(e, f)
  {
    if e.content.Bootstrap? {
      BootstrapResponses.TransmittedBytes(e.content.bootstrap, f);
    }
  }

  /**
   * The length field of a transmission reads back as the length of the whole
   * array, and between it and the 64-byte signature stands exactly the signed region.
   */
  lemma TransmissionLayout(e: Envelope, f: Serializers)
    requires TransmissionSize(e, f) < 0x8000_0000
    ensures TakeInt(Transmission(e, f), 0) == Parsed(|Transmission(e, f)|, 4)
    ensures Transmission(e, f)[4..|Transmission(e, f)| - 64] == Region(e, f)
    ensures Transmission(e, f)[|Transmission(e, f)| - 64..] == e.sourceNodeSignature
  {
    var s, n := Transmission(e, f), TransmissionSize(e, f);
    var region, signature := Region(e, f), e.sourceNodeSignature;
    TransmissionLength(e, f);
    TransmissionTail(e, f);
    AppendTwice(IntBytes(n), region, signature);
    AtWhole(s);
    AtSplit(IntBytes(n), region + signature, s, 0, 4);
    TakeIntOf(n, s, 0);
    assert s[4..|s| - 64] == s[4..][..|region|];
    assert (region + signature)[..|region|] == region;
    assert s[|s| - 64..] == s[4..][|region|..];
    assert (region + signature)[|region|..] == signature;
  }

  /** processContent reads back the content that getBytes wrote, stopping right after it. */
  lemma ReadContentOf(t: MessageType, c: Content, s: seq<Byte>, pos: nat, next: nat, f: Serializers)
    requires RoundTrips(f) && Carries(t, c) && ContentFits(c)
    requires At(ContentBytes(c, f), s, pos) && next == pos + |ContentBytes(c, f)|
    ensures ReadContent(Some(t), s, pos, f) == Parsed(ReceivedContent(c), next)
  {
    match c
    case NoContent =>
    case Bootstrap(r) =>
      BootstrapResponses.DecodeEncode(r, f, s, pos);
    case NodeJoin(r) =>
      NodeJoinResponses.DecodeEncode(r, f, s, pos);
    case Other(cls, p) =>
      var bytes := f.payloadBytes(cls, p);
      AtRest(bytes, s, pos);
      assert f.readPayload(cls, s[pos..]) == Done(p, |bytes|);
  }

  /**
   * Once the timestamp, a registered type and its content stand at the start of
   * the buffer, fromBytes reads them back and goes on right after the content.
   */
  lemma ParseHead(e: Envelope, s: seq<Byte>, forValue: UInt16 -> Option<MessageType>, f: Serializers, next: nat)
    requires RoundTrips(f) && forValue(e.messageType.value) == Some(e.messageType)
    requires Carries(e.messageType, e.content) && ContentFits(e.content)
    requires At(LongBytes(e.timestamp) + ShortBytes(e.messageType.value) + ContentBytes(e.content, f), s, 0)
    requires next == 10 + |ContentBytes(e.content, f)|
    ensures Parse(s, forValue, f) == ParseTrailer(s, e.timestamp, Some(e.messageType), ReceivedContent(e.content), next)
  {
    var timestampBytes, typeBytes := LongBytes(e.timestamp), ShortBytes(e.messageType.value);
    AtSplit(timestampBytes + typeBytes, ContentBytes(e.content, f), s, 0, 10);
    AtSplit(timestampBytes, typeBytes, s, 0, 8);
    TakeLongOf(e.timestamp, s, 0);
    TakeUnsignedShortOf(e.messageType.value, s, 8);
    ReadContentOf(e.messageType, e.content, s, 10, next, f);
  }

  /** fromBytes on a signed region followed by its signature gives back the envelope as a receiver sees it. */
  lemma ParseEncoded(e: Envelope, s: seq<Byte>, forValue: UInt16 -> Option<MessageType>, f: Serializers,
                     p3: nat, p4: nat, end: nat)
    requires RoundTrips(f) && forValue(e.messageType.value) == Some(e.messageType)
    requires Carries(e.messageType, e.content) && ContentFits(e.content)
    requires At(Region(e, f) + e.sourceNodeSignature, s, 0)
    requires p3 == 10 + |ContentBytes(e.content, f)| && p4 == p3 + 32 && end == p4 + 64
    ensures Parse(s, forValue, f) == Parsed(Received(e), end)
  {
    var head := LongBytes(e.timestamp) + ShortBytes(e.messageType.value) + ContentBytes(e.content, f);
    AtSplit(Region(e, f), e.sourceNodeSignature, s, 0, p4);
    AtSplit(head, e.sourceNodeIdentifier, s, 0, p3);
    ParseHead(e, s, forValue, f, p3);
    TakeOf(e.sourceNodeIdentifier, s, p3);
    TakeOf(e.sourceNodeSignature, s, p4);
  }

  /**
   * fromBytes on a transmission without its length field gives back the
   * envelope, the content as a receiver decodes it, and uses every byte.
   */
  lemma ParseTransmission(e: Envelope, forValue: UInt16 -> Option<MessageType>, f: Serializers)
    requires RoundTrips(f) && forValue(e.messageType.value) == Some(e.messageType)
    requires Carries(e.messageType, e.content) && ContentFits(e.content)
    ensures Parse(Transmission(e, f)[4..], forValue, f) == Parsed(Received(e), |Transmission(e, f)| - 4)
  {
    TransmissionTail(e, f);
    AtWhole(Region(e, f) + e.sourceNodeSignature);
    var p3 := 10 + |ContentBytes(e.content, f)|;
    ParseEncoded(e, Region(e, f) + e.sourceNodeSignature, forValue, f, p3, p3 + 32, p3 + 96);
  }

  /**
   * A transmission cut short in its header, identifier or signature decodes to
   * null (a cut inside the content depends on the content's own decoder).
   */
  lemma TruncatedTransmission(e: Envelope, forValue: UInt16 -> Option<MessageType>, f: Serializers, k: nat)
    requires RoundTrips(f) && forValue(e.messageType.value) == Some(e.messageType)
    requires Carries(e.messageType, e.content) && ContentFits(e.content)
    requires k < 10 || 10 + |ContentBytes(e.content, f)| <= k < |Transmission(e, f)| - 4
    ensures Parse(Transmission(e, f)[4..][..k], forValue, f).Failed?
  {
    TransmissionTail(e, f);
    var s := Region(e, f) + e.sourceNodeSignature;
    if k >= 10 {
      var head := LongBytes(e.timestamp) + ShortBytes(e.messageType.value) + ContentBytes(e.content, f);
      var p3 := 10 + |ContentBytes(e.content, f)|;
      AtWhole(s);
      AtSplit(Region(e, f), e.sourceNodeSignature, s, 0, p3 + 32);
      AtSplit(head, e.sourceNodeIdentifier, s, 0, p3);
      AtPrefix(head, s, 0, k);
      ParseHead(e, s[..k], forValue, f, p3);
    }
  }

  /** A type value that forValue does not know makes fromBytes give null. */
  lemma UnknownTypeIsNull(s: seq<Byte>, forValue: UInt16 -> Option<MessageType>, f: Serializers)
    requires |s| >= 10 && forValue(TakeShort(s, 8).value as int % 0x1_0000).None?
    ensures Parse(s, forValue, f).Failed?
  {
  }

  /** A type without a decoder reads no content bytes: the identifier follows the type directly. */
  lemma NoDecoderReadsNothing(t: MessageType, s: seq<Byte>, pos: nat, f: Serializers)
    requires DecoderFor(t).None?
    ensures ReadContent(Some(t), s, pos, f) == Parsed(NoContent, pos)
  {
  }

  /**
   * A message made here and sent arrives intact and valid: the receiver decodes
   * the envelope, and the signature verifies over what it decoded.
   */
  lemma SentMessageVerifies(e: Envelope, c: Signer, seed: Seed, forValue: UInt16 -> Option<MessageType>, f: Serializers)
    requires Sound(c) && SignedWith(e, c, seed, f)
    requires RoundTrips(f) && forValue(e.messageType.value) == Some(e.messageType)
    requires Carries(e.messageType, e.content) && ContentFits(e.content)
    ensures Parse(Transmission(e, f)[4..], forValue, f).Parsed?
    ensures Verifies(Parse(Transmission(e, f)[4..], forValue, f).value, c, f)
  {
    ParseTransmission(e, forValue, f);
    ReceivedRegion(e, f);
  }
}

=== FILE: node_join_response.dfy ===
/**
 * NodeJoinResponse: the blocks a verifier sends to a node that has asked to
 * join. They are the Genesis block, if the verifier has it, followed by the
 * frozen blocks among the five highest frozen heights, lowest first. On the
 * wire, a short count is followed by each block and then its balance list.
 */
module NodeJoinResponses {
  import opened Wrappers
  import opened Bytes
  import opened Buffers
  import opened External

  datatype NodeJoinResponse = NodeJoinResponse(blocks: seq<Block>)

  /** How far below the highest frozen height the window reaches. */
  const WindowDepth: nat := 4

  /** `Math.max(1L, highestBlockFrozen - 4L)`: the window never reaches back to Genesis. */
  function WindowStart(highestFrozen: int): (r: int)
    ensures r >= 1 && r >= highestFrozen - WindowDepth
    ensures r == 1 || r == highestFrozen - WindowDepth
  {
    if 1 >= highestFrozen - WindowDepth then 1 else highestFrozen - WindowDepth
  }

  /** The frozen blocks at heights lo up to but not including end, lowest first, skipping heights with none. */
  function WindowBlocks(blockAt: int -> Option<Block>, lo: int, end: int): seq<Block>
    decreases end - lo
  {
    if end <= lo then []
    else WindowBlocks(blockAt, lo, end - 1) + (match blockAt(end - 1) case Some(b) => [b] case None => [])
  }

  /** The Genesis block as a list of at most one. */
  function GenesisBlocks(blockAt: int -> Option<Block>): seq<Block>
  {
    match blockAt(0)
    case Some(b) => [b]
    case None => []
  }

  /** What the snapshot constructor collects: Genesis, then the window [max(1, H - 4), H]. */
  function JoinBlocks(blockAt: int -> Option<Block>, highestFrozen: int): seq<Block>
  {
    GenesisBlocks(blockAt) + WindowBlocks(blockAt, WindowStart(highestFrozen), highestFrozen + 1)
  }

  /**
   * The snapshot constructor. The frozen-block provider is a parameter: the
   * frozen block at a height, or None for null.
   */
  method Snapshot(highestFrozen: Int64, frozenBlockAt: int -> Option<Block>) returns (r: NodeJoinResponse)
    ensures r.blocks == JoinBlocks(frozenBlockAt, highestFrozen)
  {
    var blocks: seq<Block> := [];
    var genesisBlock := frozenBlockAt(0);
    if genesisBlock.Some? {
      blocks := blocks + [genesisBlock.value];
    }
    ghost var genesis := blocks;
    var lo := WindowStart(highestFrozen);
    var i := lo;
    while i <= highestFrozen
      invariant lo <= i && (i <= highestFrozen + 1 || i == lo)
      invariant blocks == genesis + WindowBlocks(frozenBlockAt, lo, i)
      decreases highestFrozen - i
    {
      var block := frozenBlockAt(i);
      ghost var added: seq<Block> := if block.Some? then [block.value] else [];
      assert WindowBlocks(frozenBlockAt, lo, i + 1) == WindowBlocks(frozenBlockAt, lo, i) + added;
      AppendTwice(genesis, WindowBlocks(frozenBlockAt, lo, i), added);
      if block.Some? {
        blocks := blocks + [block.value];
      }
      i := i + 1;
    }
    assert WindowBlocks(frozenBlockAt, lo, i) == WindowBlocks(frozenBlockAt, lo, highestFrozen + 1);
    r := NodeJoinResponse(blocks);
  }

  /** The heights from lo up to but not including end, ascending, at which the provider has a block. */
  function PresentHeights(blockAt: int -> Option<Block>, lo: int, end: int): seq<int>
    decreases end - lo
  {
    if end <= lo then []
    else PresentHeights(blockAt, lo, end - 1) + (if blockAt(end - 1).Some? then [end - 1] else [])
  }

  /** The heights Genesis and the window blocks come from. */
  function JoinHeights(blockAt: int -> Option<Block>, highestFrozen: int): seq<int>
  {
    (if blockAt(0).Some? then [0] else []) + PresentHeights(blockAt, WindowStart(highestFrozen), highestFrozen + 1)
  }

  /** The window's blocks are the provider's blocks at the window's present heights, in the same order. */
  lemma {:induction false} WindowBlocksAt(blockAt: int -> Option<Block>, lo: int, end: int)
    ensures |WindowBlocks(blockAt, lo, end)| == |PresentHeights(blockAt, lo, end)|
    ensures forall k :: 0 <= k < |WindowBlocks(blockAt, lo, end)| ==>
              blockAt(PresentHeights(blockAt, lo, end)[k]) == Some(WindowBlocks(blockAt, lo, end)[k])
    decreases end - lo
  {
    if end > lo {
      WindowBlocksAt(blockAt, lo, end - 1);
    }
  }

  /** Present heights lie in [lo, end), ascend strictly, and have a block. */
  lemma {:induction false} PresentHeightsInOrder(blockAt: int -> Option<Block>, lo: int, end: int)
    ensures forall k :: 0 <= k < |PresentHeights(blockAt, lo, end)| ==>
              lo <= PresentHeights(blockAt, lo, end)[k] < end && blockAt(PresentHeights(blockAt, lo, end)[k]).Some?
    ensures forall j, k :: 0 <= j < k < |PresentHeights(blockAt, lo, end)| ==>
              PresentHeights(blockAt, lo, end)[j] < PresentHeights(blockAt, lo, end)[k]
    decreases end - lo
  {
    if end > lo {
      PresentHeightsInOrder(blockAt, lo, end - 1);
      var before := PresentHeights(blockAt, lo, end - 1);
      var hs := PresentHeights(blockAt, lo, end);
      if blockAt(end - 1).Some? {
        assert hs == before + [end - 1];
        forall k | 0 <= k < |before| ensures hs[k] == before[k] < end - 1 { }
      } else {
        assert hs == before;
      }
    }
  }

  /** There are no more present heights than heights in the range. */
  lemma {:induction false} PresentHeightsCount(blockAt: int -> Option<Block>, lo: int, end: int)
    ensures |PresentHeights(blockAt, lo, end)| <= if end <= lo then 0 else end - lo
    decreases end - lo
  {
    if end > lo {
      PresentHeightsCount(blockAt, lo, end - 1);
    }
  }

  /** A height is listed exactly when it lies in the range and the provider has a block there. */
  lemma {:induction false} PresentHeightsExactly(blockAt: int -> Option<Block>, lo: int, end: int, h: int)
    ensures h in PresentHeights(blockAt, lo, end) <==> lo <= h < end && blockAt(h).Some?
    decreases end - lo
  {
    if end > lo {
      PresentHeightsExactly(blockAt, lo, end - 1, h);
    }
  }

  /** The response's blocks are the provider's blocks at JoinHeights, in the same order. */
  lemma JoinBlocksAt(blockAt: int -> Option<Block>, highestFrozen: int)
    ensures |JoinBlocks(blockAt, highestFrozen)| == |JoinHeights(blockAt, highestFrozen)|
    ensures forall k :: 0 <= k < |JoinBlocks(blockAt, highestFrozen)| ==>
              blockAt(JoinHeights(blockAt, highestFrozen)[k]) == Some(JoinBlocks(blockAt, highestFrozen)[k])
  {
    var lo, end := WindowStart(highestFrozen), highestFrozen + 1;
    WindowBlocksAt(blockAt, lo, end);
    var g, w := GenesisBlocks(blockAt), WindowBlocks(blockAt, lo, end);
    var gh: seq<int> := if blockAt(0).Some? then [0] else [];
    var wh := PresentHeights(blockAt, lo, end);
    forall k | 0 <= k < |g + w|
      ensures blockAt((gh + wh)[k]) == Some((g + w)[k])
    {
      if k >= |g| {
        assert (gh + wh)[k] == wh[k - |g|] && (g + w)[k] == w[k - |g|];
      }
    }
  }

  /** Genesis comes first when there is one, and no later block is from height 0; the heights ascend. */
  lemma JoinHeightsOrder(blockAt: int -> Option<Block>, highestFrozen: int)
    ensures blockAt(0).Some? <==> JoinHeights(blockAt, highestFrozen) != [] && JoinHeights(blockAt, highestFrozen)[0] == 0
    ensures forall k :: 0 < k < |JoinHeights(blockAt, highestFrozen)| ==> JoinHeights(blockAt, highestFrozen)[k] >= 1
    ensures forall j, k :: 0 <= j < k < |JoinHeights(blockAt, highestFrozen)| ==>
              JoinHeights(blockAt, highestFrozen)[j] < JoinHeights(blockAt, highestFrozen)[k]
  {
    var lo, end := WindowStart(highestFrozen), highestFrozen + 1;
    var window := PresentHeights(blockAt, lo, end);
    PresentHeightsInOrder(blockAt, lo, end);
    var hs := JoinHeights(blockAt, highestFrozen);
    if blockAt(0).Some? {
      assert hs == [0] + window;
      forall k | 0 < k < |hs| ensures hs[k] == window[k - 1] >= 1 { }
    } else {
      assert hs == window;
    }
  }

  /** The response holds exactly Genesis, if present, and the blocks present in [max(1, H - 4), H]. */
  lemma JoinHeightsExactly(blockAt: int -> Option<Block>, highestFrozen: int, h: int)
    ensures h in JoinHeights(blockAt, highestFrozen)
        <==> blockAt(h).Some? && (h == 0 || WindowStart(highestFrozen) <= h <= highestFrozen)
  {
    PresentHeightsExactly(blockAt, WindowStart(highestFrozen), highestFrozen + 1, h);
  }

  /** At most Genesis and five window blocks; nothing at all when nothing is frozen and there is no Genesis block. */
  lemma JoinBlocksSize(blockAt: int -> Option<Block>, highestFrozen: int)
    ensures |JoinBlocks(blockAt, highestFrozen)| <= 1 + WindowDepth + 1
    ensures highestFrozen < 0 && blockAt(0).None? ==> JoinBlocks(blockAt, highestFrozen) == []
  {
    var lo, end := WindowStart(highestFrozen), highestFrozen + 1;
    WindowBlocksAt(blockAt, lo, end);
    PresentHeightsCount(blockAt, lo, end);
  }

  /** Each block on the wire: the block's bytes, then its balance list's bytes. */
  function EntryBytes(f: Serializers): Block -> seq<Byte>
  {
    (b: Block) => f.blockBytes(b.header) + ListBytes(f, b.balanceList)
  }

  /** A balance list's bytes; the methods below never reach the empty case (see Attached). */
  function ListBytes(f: Serializers, list: Option<BalanceList>): seq<Byte>
  {
    match list
    case Some(l) => f.balanceListBytes(l)
    case None => []
  }

  /** Every block has its balance list; getByteSize and getBytes throw NullPointerException otherwise. */
  predicate Attached(blocks: seq<Block>)
  {
    forall k :: 0 <= k < |blocks| ==> blocks[k].balanceList.Some?
  }

  /** The bytes getBytes writes: the count as a short, then each block and its balance list. */
  function Encode(r: NodeJoinResponse, f: Serializers): seq<Byte>
  {
    ShortBytes(|r.blocks|) + Flatten(r.blocks, EntryBytes(f))
  }

  /** Short.BYTES, the width of the block count. */
  const CountBytes: nat := 2

  /** The getByteSize formula: the count, then each block's size plus its balance list's size. */
  function ByteSize(r: NodeJoinResponse, f: Serializers): nat
  {
    CountBytes + TotalSize(r.blocks, EntryBytes(f))
  }

  /** getByteSize agrees exactly with what getBytes writes. */
  lemma SizeAgreement(r: NodeJoinResponse, f: Serializers)
    ensures |Encode(r, f)| == ByteSize(r, f)
  {
    FlattenSize(r.blocks, EntryBytes(f));
  }

  method GetByteSize(r: NodeJoinResponse, f: Serializers) returns (size: nat)
    requires Attached(r.blocks)
    ensures size == ByteSize(r, f)
  {
    size := CountBytes;
    var i := 0;
    while i < |r.blocks|
      invariant i <= |r.blocks|
      invariant size == CountBytes + TotalSize(r.blocks[..i], EntryBytes(f))
    {
      var block := r.blocks[i];
      assert r.blocks[..i + 1][..i] == r.blocks[..i];
      size := size + |f.blockBytes(block.header)| + |f.balanceListBytes(block.balanceList.value)|;
      i := i + 1;
    }
    assert r.blocks[..i] == r.blocks;
  }

  /** One iteration of the getBytes loop: the block's bytes, then its balance list's bytes. */
  method PutEntry(buffer: ByteWriter, f: Serializers, block: Block)
    requires block.balanceList.Some?
    requires buffer.Valid() && buffer.pos + |EntryBytes(f)(block)| <= buffer.data.Length
    modifies buffer`pos, buffer.data
    ensures buffer.Valid() && buffer.pos == old(buffer.pos) + |EntryBytes(f)(block)|
    ensures buffer.Written() == old(buffer.Written()) + EntryBytes(f)(block)
  {
    ghost var start := buffer.Written();
    var blockBytes := f.blockBytes(block.header);
    var listBytes := f.balanceListBytes(block.balanceList.value);
    buffer.Put(blockBytes);
    buffer.Put(listBytes);
    AppendTwice(start, blockBytes, listBytes);
  }

  /** getBytes: an array of getByteSize() bytes, filled completely with the encoding. */
  method GetBytes(r: NodeJoinResponse, f: Serializers) returns (result: array<Byte>)
    requires Attached(r.blocks)
    ensures fresh(result) && result[..] == Encode(r, f)
  {
    var size := GetByteSize(r, f);
    SizeAgreement(r, f);
    var buffer := new ByteWriter(size);
    assert buffer.Written() == [];
    buffer.PutShort(|r.blocks|);
    ghost var start := buffer.Written();
    assert start == ShortBytes(|r.blocks|);
    var i := 0;
    while i < |r.blocks|
      invariant i <= |r.blocks| && buffer.Valid() && buffer.data.Length == size
      invariant buffer.pos == 2 + |Flatten(r.blocks[..i], EntryBytes(f))|
      invariant buffer.Written() == start + Flatten(r.blocks[..i], EntryBytes(f))
    {
      FlattenPrefixStep(r.blocks, EntryBytes(f), i);
      ghost var before := buffer.Written();
      PutEntry(buffer, f, r.blocks[i]);
      FlattenAppend(start, r.blocks, EntryBytes(f), i, before, buffer.Written());
      i := i + 1;
    }
    assert r.blocks[..i] == r.blocks;
    assert buffer.Written() == Encode(r, f);
    assert buffer.data[..] == buffer.Written();
    result := buffer.data;
  }

  /** Block.fromByteBuffer, then setBalanceList(BalanceList.fromByteBuffer(buffer)). */
  function ReadEntry(f: Serializers, s: seq<Byte>, pos: nat): (r: Parsed<Block>)
    ensures pos <= |s| ==> r.pos <= |s|
    ensures r.Parsed? ==> r.value.balanceList.Some?
  {
    var header :- ReadWith(f.readBlock, s, pos);
    var list :- ReadWith(f.readBalanceList, s, header.1);
    Parsed(Block(header.0, Some(list.0)), list.1)
  }

  function EntryReader(f: Serializers): (seq<Byte>, nat) -> Parsed<Block>
  {
    (s: seq<Byte>, pos: nat) => ReadEntry(f, s, pos)
  }

  /**
   * What fromByteBuffer reads at `pos`: the count, read signed, then that many
   * blocks, each with its balance list (a count of zero or less reads none).
   */
  function Decode(s: seq<Byte>, pos: nat, f: Serializers): Parsed<NodeJoinResponse>
  {
    var numberOfBlocks :- TakeShort(s, pos);
    var blocks :- ReadList(s, numberOfBlocks.1, numberOfBlocks.0, [], EntryReader(f));
    Parsed(NodeJoinResponse(blocks.0), blocks.1)
  }

  lemma EntryReaderStaysWithin(s: seq<Byte>, f: Serializers)
    ensures StaysWithin(EntryReader(f), s)
  {
  }

  /**
   * fromByteBuffer: the response, or null when any read throws; the catch
   * leaves the buffer where the failing read stopped.
   */
  method FromByteBuffer(buffer: ByteReader, f: Serializers) returns (r: Option<NodeJoinResponse>)
    requires buffer.Valid()
    modifies buffer`pos
    ensures buffer.Valid()
    ensures r == Decode(buffer.data, old(buffer.pos), f).ToOption()
    ensures buffer.pos == Decode(buffer.data, old(buffer.pos), f).pos
  {
    EntryReaderStaysWithin(buffer.data, f);
    var numberOfBlocks := buffer.GetShort();
    if numberOfBlocks.Failed? { return None; }
    var blocks := buffer.GetList(numberOfBlocks.value, EntryReader(f));
    if blocks.Failed? { return None; }
    r := Some(NodeJoinResponse(blocks.value));
  }

  /** Every decoded block has its balance list set. */
  lemma DecodedAttached(s: seq<Byte>, pos: nat, f: Serializers)
    requires Decode(s, pos, f).Parsed?
    ensures Attached(Decode(s, pos, f).value.blocks)
  {
    var n := TakeShort(s, pos);
    ReadListAttached(s, n.pos, n.value, [], f);
  }

  lemma {:induction false} ReadListAttached(s: seq<Byte>, pos: nat, count: int, acc: seq<Block>, f: Serializers)
    requires Attached(acc) && ReadList(s, pos, count, acc, EntryReader(f)).Parsed?
    ensures Attached(ReadList(s, pos, count, acc, EntryReader(f)).value)
    decreases count
  {
    if count > 0 {
      var x := ReadEntry(f, s, pos);
      assert x.Parsed?;
      ReadListStep(s, pos, count, acc, EntryReader(f));
      ReadListAttached(s, x.pos, count - 1, acc + [x.value], f);
    }
  }

  /** A count of zero or less decodes as an empty list, right after the count. */
  lemma NonPositiveCount(s: seq<Byte>, pos: nat, f: Serializers)
    requires TakeShort(s, pos).Parsed? && TakeShort(s, pos).value <= 0
    ensures Decode(s, pos, f) == Parsed(NodeJoinResponse([]), pos + 2)
  {
  }

  /** A buffer without room for the count decodes to nothing, and the position stays put. */
  lemma MissingCount(s: seq<Byte>, pos: nat, f: Serializers)
    requires |s| < pos + 2
    ensures Decode(s, pos, f) == Failed(pos)
  {
  }

  /** A block with its balance list reads back, the list reattached, where its entry stands. */
  lemma ReadEntryOf(f: Serializers, b: Block, s: seq<Byte>, p: nat)
    requires RoundTrips(f) && b.balanceList.Some?
    requires At(EntryBytes(f)(b), s, p)
    ensures ReadEntry(f, s, p) == Parsed(b, p + |EntryBytes(f)(b)|)
  {
    var blockBytes, listBytes := f.blockBytes(b.header), f.balanceListBytes(b.balanceList.value);
    var mid := p + |blockBytes|;
    AtSplit(blockBytes, listBytes, s, p, mid);
    AtRest(blockBytes, s, p);
    AtRest(listBytes, s, mid);
    assert f.readBlock(s[p..]) == Done(b.header, |blockBytes|);
    assert f.readBalanceList(s[mid..]) == Done(b.balanceList.value, |listBytes|);
  }

  lemma EntriesReadBack(f: Serializers, blocks: seq<Block>, s: seq<Byte>)
    requires RoundTrips(f) && Attached(blocks)
    ensures ReadsBack(EntryReader(f), EntryBytes(f), blocks, s)
  {
    forall i, p: nat | 0 <= i < |blocks| && At(EntryBytes(f)(blocks[i]), s, p)
      ensures EntryReader(f)(s, p) == Parsed(blocks[i], p + |EntryBytes(f)(blocks[i])|)
    {
      ReadEntryOf(f, blocks[i], s, p);
    }
  }

  /**
   * fromByteBuffer reads back what getBytes wrote, stopping right after it:
   * the same blocks in the same order, each with its balance list reattached.
   */
  lemma DecodeEncode(r: NodeJoinResponse, f: Serializers, s: seq<Byte>, pos: nat)
    requires RoundTrips(f) && Attached(r.blocks) && |r.blocks| < 0x8000
    requires At(Encode(r, f), s, pos)
    ensures Decode(s, pos, f) == Parsed(r, pos + |Encode(r, f)|)
  {
    var entries := Flatten(r.blocks, EntryBytes(f));
    var end := pos + 2 + |entries|;
    AtSplit(ShortBytes(|r.blocks|), entries, s, pos, pos + 2);
    TakeShortOf(|r.blocks|, s, pos);
    EntriesReadBack(f, r.blocks, s);
    ReadListOf(r.blocks, EntryBytes(f), EntryReader(f), s, pos + 2, end, []);
    assert [] + r.blocks == r.blocks;
    assert end == pos + |Encode(r, f)|;
  }
}

=== FILE: wrappers.dfy ===
/** The optional value the model uses wherever the Java code uses null. */
module Wrappers {
  datatype Option<+T> = None | Some(value: T)
}
